=== FILE: README.md ===
# ClawCloud auto-login: a Dafny model of the decision layer

`scripts/auto_login.py` signs a GitHub account into a ClawCloud Run regional
tenant (`https://<letters>-<letters>-<digits>.run.claw.cloud`). It drives a
headless browser: it clicks the tenant's GitHub button, fills GitHub's login
form and waits for device verification. It then handles the second factor,
either GitHub Mobile approval or a one-time code relayed by the operator over
Telegram with `/code 123456`. After that it answers the OAuth consent page,
waits to be redirected back, and finally decides whether the tenant session
is logged in. Afterwards it visits the tenant (and optionally other regions)
and rotates the stored GitHub `user_session` cookie.

This project models the pure decision layer of that script. The browser is
reduced to two observations: the URL a page shows, and the set of Playwright
selectors that are visible on it. The Telegram feed is a sequence of replies.
Every wait loop is a bounded sequence of per-tick observations.

| file | module | what it models |
|---|---|---|
| `wrappers.dfy` | `Wrappers` | `Option` |
| `strings.dfy` | `Strings` | Python's `in`, `startswith`/`endswith`, `strip()`, `split(',')`/`','.join`, `replace(pat, "")`, ASCII `lower()` |
| `urls.dfy` | `Urls` | `is_signin_url`, `is_run_cloud_url`, the scheme and netloc that `urlparse` yields |
| `region.dfy` | `Region` | the forced region, `detect_region`, `get_base_url` |
| `page.dfy` | `Page` | `click`'s first-visible rule, the welcome-page detector, `assert_runcloud_logged_in`, `oauth` |
| `telegram.dfy` | `Telegram` | `flush_updates`, the `/code` grammar, `wait_code`, and how the Bot API serves `getUpdates` |
| `stages.dfy` | `Stages` | `wait_device`, `wait_two_factor_mobile`, `handle_2fa_code_input`, `login_github`, the routing of `run` |
| `redirect.dfy` | `Redirect` | `wait_redirect` |
| `config.dfy` | `Config` | the `CLAW_REGIONS` list and the keep-alive visit list |
| `rotation.dfy` | `Rotation` | `get_session`, `save_cookie` and its masked log line |

Highlights:

- The tenant-URL test is a start-anchored regular expression.
  - It accepts exactly the strings that begin with a tenant origin (`Urls.RunCloudUrlShape`), and what follows may be anything.
  - So `https://ap-southeast-1.run.claw.cloud.example.com/` passes the test, yet region detection finds no region in it (`Region.ForeignHostExample`).
- Region detection deletes every copy of `.run.claw.cloud` from the host.
  - A region round-trips to its base URL when the suffix occurs once (`Region.SingleSuffixRoundTrip`).
  - It does not round-trip when the suffix repeats (`Region.RepeatedSuffixBreaksRoundTrip`).
- The final verdict is exactly "tenant URL, not a sign-in URL, no welcome affordance visible" (`Page.LoggedInExactly`).
- The operator-code protocol:
  - Each batch returns the code of the first update from the configured chat whose stripped text is `/code`, whitespace, then 6 to 8 digits (`Telegram.ProcessBatch`, `Telegram.VerdictIsChatAndGrammar`).
  - The cursor sent with each poll follows the previous reply (`Telegram.WaitCode`).
  - The start-up flush skips the whole backlog as long as it fits in one page of 100 updates (`Telegram.FlushSkipsBacklog`).
  - A backlog beyond one page leaks its 101st update into the wait (`Telegram.BacklogBeyondOnePageLeaks`).
  - A failed flush leaks the whole backlog (`Telegram.FailedFlushServesBacklog`).
- In the GitHub Mobile wait the success test runs first. So GitHub's plain login form counts as an approved login (`Stages.LoginFormPassesMobileWait`).
- In `wait_redirect` the retry condition always holds once reached: every refused tenant page retries the GitHub button (`Redirect.RedirectStep`).
- The wait for the browser to leave the entry page is satisfied by the entry page itself, because its URL already contains `.run.claw.cloud` (`Stages.EntryPageCountsAsJump`).

## Model

| member | source | states |
|---|---|---|
| Strings.Strip | scripts/auto_login.py:119 | the result has no whitespace at either end and is the input minus whitespace-only padding on both sides |
| Strings.StripUnique | scripts/auto_login.py:119 | any trimmed core of a whitespace padding of `s` is `strip(s)`, so the two properties pin strip down |
| Strings.StripIdempotent | scripts/auto_login.py:203 | stripping twice is stripping once |
| Strings.JoinSplit | scripts/auto_login.py:203 | joining the pieces of `split(',')` with `,` restores the text |
| Strings.SplitJoin | scripts/auto_login.py:203 | splitting a join of comma-free pieces gives the pieces back |
| Strings.RemoveAllLoneSuffix | scripts/auto_login.py:260 | `replace(suffix, "")` on `r + suffix`, where the suffix occurs nowhere else, gives `r` |
| Strings.ContainsLowerIsFolded | scripts/auto_login.py:244-247 | searching for a lower-case needle in the lower-cased URL is the same as a case-insensitive search in the URL |
| Urls.SigninUrlIgnoresCase | scripts/auto_login.py:243-249 | a sign-in URL is one that contains `/signin` in any letter case, or contains `/login` and lacks `github.com` in any letter case |
| Urls.SigninSegmentDecides | scripts/auto_login.py:245-246 | any seven characters that spell `/signin` ignoring letter case make a sign-in URL, whatever surrounds them |
| Urls.MixedCaseSignin | scripts/auto_login.py:245-246 | the spelling `/SignIn` anywhere makes a sign-in URL |
| Urls.GitHubLoginIsNotSignin | scripts/auto_login.py:247-249 | `https://github.com/login` is not a sign-in URL |
| Urls.RunCloudUrlShape | scripts/auto_login.py:251-252 | the tenant test holds exactly for strings that start with `https://` + letters + `-` + letters + `-` + digits + `.run.claw.cloud` |
| Urls.TenantOriginAccepted | scripts/auto_login.py:251-252 | a tenant origin followed by anything at all passes the test (start anchor only) |
| Urls.ConsoleIsNotTenant | scripts/auto_login.py:251-252 | `https://console.run.claw.cloud` fails the tenant test |
| Urls.RunCloudUrlIgnoresWhatFollows | scripts/auto_login.py:252 | a tenant origin inside a foreign host still passes |
| Urls.Netloc | scripts/auto_login.py:256-257 | without `//` after the scheme the network location is empty; with it, the location follows `//` and runs up to the first `/`, `?` or `#` or the end of the URL |
| Urls.NetlocOfHttps | scripts/auto_login.py:256-257 | for `https://host` + path, the scheme is `https` and the netloc is exactly `host` |
| Region.ForcedBase | scripts/auto_login.py:198-199 | a base URL exists exactly when a non-empty region is forced; it starts with `https://`, ends with `.run.claw.cloud`, and the forced region reads back from between the two |
| Region.SigninUrl | scripts/auto_login.py:30-34 | the entry page is `/signin` on the forced base URL when there is one, otherwise on the console |
| Region.EntryIsSigninUrl | scripts/auto_login.py:30-34 | the entry page, forced or not, is itself a sign-in URL |
| Region.ForcedRegion | scripts/auto_login.py:25 | no forced region exactly when the setting is blank; otherwise the forced region is non-empty, trimmed, and is the setting with only whitespace removed from either end |
| Region.ForcedRegionIsStripped | scripts/auto_login.py:25 | the forced region is exactly the stripped setting |
| Region.DetectRegion | scripts/auto_login.py:254-270 | a region is found exactly when the netloc ends in `.run.claw.cloud`; then region and `https://` + netloc are recorded, otherwise the state is unchanged |
| Region.ApexHasNoRegion | scripts/auto_login.py:259 | a URL on the apex `run.claw.cloud` leaves the state alone and returns no region |
| Region.SingleSuffixRoundTrip | scripts/auto_login.py:259-262 | when the suffix occurs only at the end of the host, `https://` + region + suffix is the recorded base URL |
| Region.TenantUrlRegion | scripts/auto_login.py:251-262 | a tenant origin plus a path passes the tenant test, yields region `x-y-d`, and records the origin as the base URL |
| Region.RepeatedSuffixBreaksRoundTrip | scripts/auto_login.py:260-262 | host `a.run.claw.cloud.run.claw.cloud` gives region `a`, whose base URL differs from the recorded one |
| Region.TenantPrefixWithoutRegion | scripts/auto_login.py:252-259 | a URL can pass the tenant test while detection finds no region, because its host ends in another domain |
| Region.ForeignHostExample | scripts/auto_login.py:252-259 | the concrete case `https://ap-southeast-1.run.claw.cloud.example.com/` |
| Region.GetBaseUrl | scripts/auto_login.py:272-281 | the forced base wins, then a non-empty detected base, then the origin of the entry URL |
| Region.EntryOrigin | scripts/auto_login.py:279-281 | without a forced region, the entry URL's origin is `https://console.run.claw.cloud` |
| Region.ForcedRegionRoundTrip | scripts/auto_login.py:272-275 | a forced region name free of dots and delimiters reads back from the resolved base URL |
| Region.DetectedBaseWins | scripts/auto_login.py:276-277 | without a forced region, detecting on a tenant URL makes its origin the base URL |
| Page.FirstVisible | scripts/auto_login.py:221-232 | the index of the first visible candidate, or none when no candidate is visible |
| Page.Click | scripts/auto_login.py:221-232 | something is clicked exactly when some candidate is visible, and it is the first visible one in list order |
| Page.WelcomeIsAnyVisible | scripts/auto_login.py:314-333 | the welcome detector holds exactly when one of its six selectors is visible |
| Page.LoggedInExactly | scripts/auto_login.py:335-350 | logged in exactly when the URL starts with a tenant origin, is no sign-in URL, and no welcome selector is visible |
| Page.WelcomeForcesLoggedOut | scripts/auto_login.py:346-347 | any visible welcome affordance makes the verdict false whatever the URL |
| Page.VerdictIgnoresOtherSelectors | scripts/auto_login.py:318-325 | selectors outside the welcome list never change the verdict |
| Page.Consent | scripts/auto_login.py:498-517 | only the consent URL is handled; there the control clicked is the first visible authorize control in list order, and when no authorize control is visible it is the first visible continue control |
| Telegram.MatchCodeIsGrammar | scripts/auto_login.py:98 | the matcher returns a code exactly when the text is `/code`, whitespace, then 6 to 8 digits with nothing after |
| Telegram.CodeCommandUnique | scripts/auto_login.py:98 | a text matches the grammar with at most one code |
| Telegram.VerdictIsChatAndGrammar | scripts/auto_login.py:114-122 | an update yields a code exactly when its chat is the configured one and its stripped text matches the grammar |
| Telegram.StrippedCommand | scripts/auto_login.py:119-122 | whitespace around a well-formed command does not stop it matching |
| Telegram.NonDigitRejected | scripts/auto_login.py:98 | a code containing a non-digit is rejected |
| Telegram.ScenarioCodes | scripts/auto_login.py:98 | `/code 482913` yields `482913`; `/code 12AB34` yields nothing |
| Telegram.FlushOffset | scripts/auto_login.py:71-86 | after a good, non-empty reply the offset is one past the last update's id, and so above every id served; an unconfigured bot, a failure or an empty reply gives 0 |
| Telegram.FirstYielding | scripts/auto_login.py:112-122 | the index of the first update that yields a code, none before it yielding |
| Telegram.FirstCode | scripts/auto_login.py:112-122 | no code exactly when no update of the batch yields one |
| Telegram.ProcessBatch | scripts/auto_login.py:112-122 | returns the first yielding update's code and its id + 1 as the cursor; with no code, the cursor is past the last update, or unchanged for an empty batch |
| Telegram.WaitCode | scripts/auto_login.py:88-128 | one cursor is sent per poll made: the first is the flush offset and each later one the cursor after the previous reply; a code comes from the last poll made, and every earlier poll yielded none; without a code every poll was made and none yielded one |
| Telegram.FlushSkipsBacklog | scripts/auto_login.py:71-86 | after the flush of a one-page backlog, every update that arrives later is still pending and no backlog update is; requests are served as if the backlog had never existed, and with nothing new, nothing |
| Telegram.BacklogBeyondOnePageLeaks | scripts/auto_login.py:76-83 | with 101 updates pending, the flush leaves the 101st to be served |
| Telegram.FailedFlushServesBacklog | scripts/auto_login.py:84-86 | a failed flush restarts from 0 and the whole backlog is served |
| Stages.DeviceTick | scripts/auto_login.py:367-387 | only every fifth tick looks; a look passes when the page is the consent page or has neither device marker, otherwise it reloads; a tick never fails |
| Stages.WaitDevice | scripts/auto_login.py:353-391 | passes exactly when some fifth tick is cleared, at the first one, with one reload per earlier look; otherwise after 12 reloads |
| Stages.MobileTick | scripts/auto_login.py:405-423 | passes exactly when the URL has left the second-factor pages; fails exactly when it is still there and is a login URL; reloads only on ticks that are multiples of 30 other than 0 |
| Stages.WaitTwoFactorMobile | scripts/auto_login.py:393-427 | stops at the first tick that is not pending and passes exactly when that tick left the second-factor pages; reloads on every multiple-of-30 tick before the stop |
| Stages.LoginFormPassesMobileWait | scripts/auto_login.py:409-416 | `https://github.com/login` passes the mobile wait: the success test runs before the failure test |
| Stages.HandleCodeInput | scripts/auto_login.py:444-496 | no code stops early; otherwise the code goes into the first visible field and is submitted by the first visible button, or Enter when none is visible; acceptance means the URL left the second-factor pages |
| Stages.CodeAndMobileAgree | scripts/auto_login.py:483 | a submitted code is accepted exactly when a mobile tick on the same URL would pass |
| Stages.SecondFactorOf | scripts/auto_login.py:557-566 | no second factor exactly when `two-factor` is absent; the mobile route requires the mobile marker |
| Stages.MobileIsSecondFactor | scripts/auto_login.py:557-561 | every URL with the mobile marker takes the mobile route |
| Stages.LoginGithub | scripts/auto_login.py:525-567 | signed in exactly when the form was filled, a requested device check passed, and the requested second factor passed; a failed device check is reported as such before any second factor, and each failure names its stage |
| Stages.Jumped | scripts/auto_login.py:735-738 | the jump wait ends on a URL exactly when it contains `github.com/login`, `github.com/session` or `.run.claw.cloud`; the consent needle adds nothing |
| Stages.ConsentHasLoginPath | scripts/auto_login.py:754 | every URL that contains the consent path also contains `github.com/login` |
| Stages.EntryPageCountsAsJump | scripts/auto_login.py:735-738 | the entry URL, forced or not, already satisfies the wait for a jump |
| Stages.EntersLoginAsWritten | scripts/auto_login.py:754 | as written, every URL that contains the consent path enters the login form |
| Stages.EntersLogin | scripts/auto_login.py:754-760 | the corrected routing never enters the login form on the consent page, and agrees with the code as written everywhere else |
| Stages.AuthStep | scripts/auto_login.py:754-760 | the run stops exactly when the login form is entered and fails; otherwise consent is handled on the current page |
| Stages.ConsentPageEntersLoginAsWritten | scripts/auto_login.py:754-756 | as written, the consent URL enters the login form, which fails there |
| Stages.ConsentPageReachesConsent | scripts/auto_login.py:754-760 | with the corrected routing, the consent URL reaches the consent handler; off the consent page both routings agree |
| Redirect.RedirectStep | scripts/auto_login.py:576-606 | a tick handles consent, records the region of a tenant URL, and succeeds exactly on the verdict; a refused tenant page always retries the GitHub button when one is visible, and the button clicked is the first visible one in the script's list |
| Redirect.WaitFirst | scripts/auto_login.py:576-610 | the loop stops at the first accepted tick, having applied the region update to every tick up to it |
| Redirect.WaitRedirect | scripts/auto_login.py:570-610 | succeeds exactly when some observation passes the verdict, at the first one, with the region knowledge gathered up to it |
| Redirect.LastTenantWins | scripts/auto_login.py:586-587 | without a forced region, a run of ticks ending on a tenant origin makes that origin the base URL |
| Redirect.ForeignPagesKeepState | scripts/auto_login.py:586-587 | ticks away from tenant URLs leave the region knowledge alone |
| Redirect.ConsentPageWaits | scripts/auto_login.py:582-583 | a consent page is handled by the consent step, is never accepted and never retries the GitHub button |
| Config.StripNonEmpty | scripts/auto_login.py:203 | every kept piece is non-empty and trimmed, and there are no more entries than pieces |
| Config.StripNonEmptyAppend | scripts/auto_login.py:203 | the comprehension handles each piece on its own and keeps their order: it distributes over concatenation |
| Config.StripNonEmptyPiece | scripts/auto_login.py:203 | wherever a piece stands it contributes its stripped text when that is not blank and nothing otherwise, which determines the whole result |
| Config.ParseRegionList | scripts/auto_login.py:201-203 | every region name is non-empty, trimmed and comma-free |
| Config.ParseSplitsRaw | scripts/auto_login.py:201-203 | stripping the whole setting first changes nothing: the list is the stripped, non-blank pieces of the raw setting split on every comma, in order |
| Config.ParseJoinPieces | scripts/auto_login.py:201-203 | any comma-separated setting, padded or with blank entries, parses to its stripped non-blank entries in order |
| Config.SpacedPair | scripts/auto_login.py:201-203 | `a, b` with clean names parses to `[a, b]` |
| Config.TwoRegionExample | scripts/auto_login.py:201-203 | `us-east-1, ap-northeast-1`, written with a space after the comma, parses to those two regions |
| Config.ParseJoin | scripts/auto_login.py:201-203 | clean names joined by commas parse back to the same list |
| Config.ParseIdempotent | scripts/auto_login.py:201-203 | writing a parsed list back and parsing again changes nothing |
| Config.VisitBases | scripts/auto_login.py:618-626 | the main base comes first, no base repeats, each is the main base or a region's base, every region's base is there, and the region bases follow the order in which they first occur in the region list |
| Rotation.FirstSession | scripts/auto_login.py:287-290 | the index of the first cookie named `user_session` whose domain contains `github.com` |
| Rotation.GetSession | scripts/auto_login.py:285-293 | none exactly when no such cookie exists; otherwise the value of the first one |
| Rotation.SessionAhead | scripts/auto_login.py:289 | a session cookie on any domain mentioning `github.com` is taken ahead of later cookies |
| Rotation.OthersSkipped | scripts/auto_login.py:288-290 | cookies that are not GitHub sessions are passed over |
| Rotation.SaveCookie | scripts/auto_login.py:295-311 | an empty value saves nothing; save_cookie's own chat messages omit the value after a successful store, and carry it exactly when the store failed and a chat is configured |
| Rotation.Rotate | scripts/auto_login.py:785-787 | a value sent to the chat is the value of a GitHub session cookie from the jar |
| Rotation.DisclosedOnlyOnStoreFailure | scripts/auto_login.py:300-311 | save_cookie's own chat messages carry the value exactly when a non-empty session was found, the store failed and a chat exists |
| Rotation.ShortValueShown | scripts/auto_login.py:298 | the masked log line shows every character of a value of at most 23 characters |
| Rotation.LongValueHidden | scripts/auto_login.py:298 | a longer value shows only its first 15 and last 8 characters |

## Left out

- Page.Click: the script passes over a visible control whose `click()` raises and tries the next selector. Here `visible` means visible and actionable, so such a control is simply absent from the set.
- Stages.HandleCodeInput: a visible field whose `fill` raises is passed over for the next field, and a visible button whose click raises for the next button and finally Enter. As with `Page.Click`, the visible set holds only the controls that act.
- Playwright: navigation, reloads, `wait_for_load_state`, screenshots, cookie injection and typing are not modelled. Each probe becomes "is this selector in the visible set", and a probe that throws or times out counts as not visible.
- Time: `time.sleep`, the deadlines of `wait_code` and `wait_for_url_contains_any`, and the 800 ms to 3 s probe timeouts are not modelled. Each wait is a sequence of per-tick observations.
- Each tick of `wait_redirect` is one snapshot: the URL read at the top of the tick is also the URL the verdict reads, although the script reads `page.url` again after clicking consent.
- Network I/O is not modelled: Telegram `sendMessage`/`sendPhoto`, GitHub's secrets API, and the sealed-box encryption and base64 in `SecretUpdater.update`. The store's result is a boolean input to `Rotation.SaveCookie`.
- The Bot API server (`Telegram.Serve`, `Telegram.Pending`) is a model of `getUpdates`, not part of the script: it serves updates with id at or above the offset, at most 100 per page, in id order.
- Telegram.ProcessBatch: does not model an update that lacks `update_id` midway through a batch. In the script the lookup raises, the exception is caught at line 123, and the next poll keeps the offset of the updates already read. The model treats each reply as either whole or `Broken`.
- Python's `lower()` and `\d` are ASCII here; non-ASCII letters and digits are not modelled.
- The regex `$` also accepts a trailing newline. This is unreachable, because the text is stripped first.
- `urlparse` is reduced to the scheme (lower-cased) and the netloc (user info and port kept). Properties are proved only for URLs of the form `https://` + host + path (`Urls.NetlocOfHttps`). Other `urlsplit` rules, such as bracketed IPv6 hosts and the scheme-character checks beyond those modelled, are not.
- The `except` branch of `get_base_url` (lines 282-283) is left out: its constant URL is never produced, because splitting the fixed entry URL cannot fail.
- Rotation.SaveCookie: the masked log line of line 298 (the first 15 and last 8 characters, so all of a value of 23 characters or fewer) is kept in the log, and `notify(True)` at line 791 sends the last six log lines to the chat (line 661). With a chat configured, that part of the value reaches the chat even after a successful store. The contract covers only the messages `save_cookie` sends itself.
- Logging, `notify`'s message formatting, environment reading, `sys.exit` and traceback printing are not modelled.
- Stages.LoginGithub: a failed submit click only logs in the script, and is not modelled. The URLs after each stage, and each wait's outcome, are inputs.
- Stages.WaitTwoFactorMobile: the tick count `TWO_FACTOR_WAIT` comes from the environment and is any length of the URL sequence; a non-integer setting, which makes the script raise at start-up, is not modelled.
- Keep-alive visits `/` and `/apps` of each base and re-runs detection on the landing URL. Only the list of bases is modelled, because the landing URLs come from navigation.

## Findings

| source | as written | input that shows it | evidently intended | confidence | as-written member | corrected member |
|---|---|---|---|---|---|---|
| scripts/auto_login.py:754 | step 3 enters `login_github` on any URL containing `github.com/login`, which includes the consent page `github.com/login/oauth/authorize` | after clicking GitHub the page is `https://github.com/login/oauth/authorize` (signed-in session, app not yet authorized): the credential fields are missing, `login_github` returns False and the run exits before line 759 handles consent | the consent page skips the login form and goes to the consent handler at lines 759-760 | medium: depends on GitHub showing the consent page when the URL is read at line 749; not executed | Stages.ConsentPageEntersLoginAsWritten | Stages.ConsentPageReachesConsent |

=== FILE: config.dfy ===
/**
 * The operator's region settings and the list of tenants the keep-alive
 * step visits.
 */
module Config {
  import opened Strings
  import opened Region

  // ---------------------------------------------------------------------------
  // The extra-region list
  // ---------------------------------------------------------------------------

  /** The entry one piece contributes: its stripped text when that is not blank, nothing otherwise. */
  function Kept(p: string): (k: seq<string>)
    ensures |k| <= 1
    ensures forall i :: 0 <= i < |k| ==> k[i] != "" && Trimmed(k[i]) && k[i] == Strip(p)
    ensures k == [] <==> Strip(p) == ""
  {
    var t := Strip(p);
    if t == "" then [] else [t]
  }

  /** `[x.strip() for x in parts if x.strip()]`. */
  function StripNonEmpty(parts: seq<string>): (rs: seq<string>)
    ensures |rs| <= |parts|
    ensures forall i :: 0 <= i < |rs| ==> rs[i] != "" && Trimmed(rs[i])
  {
    if |parts| == 0 then [] else Kept(parts[0]) + StripNonEmpty(parts[1..])
  }

  /**
   * The setting is stripped; when something is left, it is split on `,`
   * and every piece is stripped, blank pieces being dropped.
   */
  function ParseRegionList(raw: string): (rs: seq<string>)
    ensures forall i :: 0 <= i < |rs| ==> rs[i] != "" && Trimmed(rs[i]) && ',' !in rs[i]
  {
    var s := Strip(raw);
    if s == "" then []
    else
      var rs := StripNonEmpty(Split(s, ','));
      StripNonEmptyFree(Split(s, ','), ',');
      rs
  }

  /** The step treats every piece on its own and keeps their order: it distributes over concatenation. */
  lemma {:induction false} StripNonEmptyAppend(a: seq<string>, b: seq<string>)
    ensures StripNonEmpty(a + b) == StripNonEmpty(a) + StripNonEmpty(b)
  {
    if |a| > 0 {
      var ab := a + b;
      assert ab[0] == a[0];
      assert ab[1..] == a[1..] + b;
      StripNonEmptyAppend(a[1..], b);
      var k, ra, rb := Kept(a[0]), StripNonEmpty(a[1..]), StripNonEmpty(b);
      assert StripNonEmpty(ab) == k + (ra + rb);
      assert StripNonEmpty(a) == k + ra;
      assert k + (ra + rb) == (k + ra) + rb;
    } else {
      assert a + b == b;
    }
  }

  /** A list of one piece gives that piece's entry. */
  lemma StripNonEmptyOne(p: string)
    ensures StripNonEmpty([p]) == Kept(p)
  {
    assert [p][1..] == [];
  }

  /**
   * Each piece contributes its own entry wherever it stands, so with the
   * empty list giving the empty list this determines the step completely.
   */
  lemma StripNonEmptyPiece(a: seq<string>, p: string, b: seq<string>)
    ensures StripNonEmpty(a + [p] + b) == StripNonEmpty(a) + Kept(p) + StripNonEmpty(b)
  {
    StripNonEmptyAppend(a + [p], b);
    StripNonEmptyAppend(a, [p]);
    StripNonEmptyOne(p);
  }

  /** Whitespace in front of the first piece is stripped away with it. */
  lemma StripNonEmptyPadFirst(x: string, parts: seq<string>)
    requires AllIn(x, Space) && |parts| >= 1
    ensures StripNonEmpty([x + parts[0]] + parts[1..]) == StripNonEmpty(parts)
  {
    StripPadFront(x, parts[0]);
    assert ([x + parts[0]] + parts[1..])[1..] == parts[1..];
  }

  /** Whitespace after the last piece is stripped away with it. */
  lemma PadLast(init: seq<string>, last: string, y: string)
    requires AllIn(y, Space)
    ensures StripNonEmpty(init + [last + y]) == StripNonEmpty(init + [last])
  {
    StripPadBack(last, y);
    SwapLast(init, last + y, last);
  }

  lemma InitLast(parts: seq<string>)
    requires |parts| >= 1
    ensures parts[..|parts| - 1] + [parts[|parts| - 1]] == parts
  {
  }

  /** Two last pieces that strip alike give the same list. */
  lemma SwapLast(init: seq<string>, p: string, q: string)
    requires Strip(p) == Strip(q)
    ensures StripNonEmpty(init + [p]) == StripNonEmpty(init + [q])
  {
    StripNonEmptyAppend(init, [p]);
    StripNonEmptyAppend(init, [q]);
    StripNonEmptyOne(p);
    StripNonEmptyOne(q);
  }

  /**
   * Stripping the whole setting first changes nothing: the list is the
   * stripped, non-blank pieces of the raw setting split on every comma.
   */
  lemma ParseSplitsRaw(raw: string)
    ensures ParseRegionList(raw) == StripNonEmpty(Split(raw, ','))
  {
    var pre, post := Padding(raw);
    SplitPadded(pre, Strip(raw), post);
    if Strip(raw) == "" {
      StripNonEmptyOne("");
    }
  }

  /** The whitespace that strip removes from either end. */
  lemma Padding(raw: string) returns (pre: string, post: string)
    ensures AllIn(pre, Space) && AllIn(post, Space)
    ensures raw == pre + Strip(raw) + post
  {
    var s := Strip(raw);
    var i :| 0 <= i <= |raw| - |s| && PaddedAt(raw, s, i);
    pre, post := raw[..i], raw[i + |s|..];
    ThreeCuts(raw, i, i + |s|);
  }

  /** A string is its three consecutive slices. */
  lemma ThreeCuts(t: string, i: int, j: int)
    requires 0 <= i <= j <= |t|
    ensures t == t[..i] + t[i..j] + t[j..]
  {
  }

  /** Whitespace around the whole text only pads the first and the last piece, which strip removes again. */
  lemma SplitPadded(pre: string, s: string, post: string)
    requires AllIn(pre, Space) && AllIn(post, Space)
    ensures StripNonEmpty(Split(pre + s + post, ',')) == StripNonEmpty(Split(s, ','))
  {
    SpaceLacks(pre, ',');
    SpaceLacks(post, ',');
    assert pre + s + post == pre + (s + post);
    SplitGlueFront(pre, s + post, ',');
    StripNonEmptyPadFirst(pre, Split(s + post, ','));
    SplitGlueBack(s, post, ',');
    var parts := Split(s, ',');
    InitLast(parts);
    PadLast(parts[..|parts| - 1], parts[|parts| - 1], post);
  }

  /** Any comma-separated setting, spaces and blank entries included, parses to the stripped non-blank entries in order. */
  lemma ParseJoinPieces(pieces: seq<string>)
    requires |pieces| >= 1
    requires forall i :: 0 <= i < |pieces| ==> ',' !in pieces[i]
    ensures ParseRegionList(Join(pieces, ',')) == StripNonEmpty(pieces)
  {
    ParseSplitsRaw(Join(pieces, ','));
    SplitJoin(pieces, ',');
  }

  /** The usual way of writing two regions, `a, b`, gives `[a, b]`. */
  lemma SpacedPair(a: string, b: string)
    requires CleanName(a) && CleanName(b)
    ensures ParseRegionList(a + ", " + b) == [a, b]
  {
    var c := " " + b;
    JoinPair(a, c, ',');
    assert a + ", " + b == a + [','] + c;
    ParseJoinPieces([a, c]);
    PairEntries(a, b);
  }

  /** The pieces `a` and ` b` give the entries `a` and `b`. */
  lemma PairEntries(a: string, b: string)
    requires CleanName(a) && CleanName(b)
    ensures StripNonEmpty([a, " " + b]) == [a, b]
  {
    var c := " " + b;
    assert [a, c] == [a] + [c];
    StripNonEmptyAppend([a], [c]);
    StripNonEmptyOne(a);
    StripNonEmptyOne(c);
    KeptClean(a);
    KeptPadded(b);
  }

  lemma JoinPair(a: string, c: string, sep: char)
    ensures Join([a, c], sep) == a + [sep] + c
  {
    assert [a, c][1..] == [c];
  }

  /** A clean name is its own entry. */
  lemma KeptClean(a: string)
    requires a != "" && Trimmed(a)
    ensures Kept(a) == [a]
  {
    StripPadded("", a, "");
    assert "" + a + "" == a;
  }

  /** A clean name after a space is that name's entry. */
  lemma KeptPadded(b: string)
    requires b != "" && Trimmed(b)
    ensures Kept(" " + b) == [b]
  {
    StripPadded(" ", b, "");
    assert " " + b + "" == " " + b;
  }

  /** `CLAW_REGIONS="us-east-1, ap-northeast-1"` lists those two regions. */
  lemma TwoRegionExample()
    ensures ParseRegionList("us-east-1, ap-northeast-1") == ["us-east-1", "ap-northeast-1"]
  {
    var a, b := "us-east-1", "ap-northeast-1";
    assert CleanName(a);
    assert CleanName(b);
    assert a + ", " + b == "us-east-1, ap-northeast-1";
    SpacedPair(a, b);
  }

  /** Stripping never introduces a character. */
  lemma StripInside(x: string, c: char)
    requires c !in x
    ensures c !in Strip(x)
  {
    var r := Strip(x);
    var i :| 0 <= i <= |x| - |r| && PaddedAt(x, r, i);
    forall k | 0 <= k < |r|
      ensures r[k] != c
    {
      assert r[k] == x[i..i + |r|][k] == x[i + k];
    }
  }

  /** A piece free of `c` stays free of it. */
  lemma {:induction false} StripNonEmptyFree(parts: seq<string>, c: char)
    requires forall p :: p in parts ==> c !in p
    ensures forall i :: 0 <= i < |StripNonEmpty(parts)| ==> c !in StripNonEmpty(parts)[i]
  {
    if |parts| > 0 {
      assert parts[0] in parts;
      StripInside(parts[0], c);
      assert forall p :: p in parts[1..] ==> p in parts;
      StripNonEmptyFree(parts[1..], c);
    }
  }

  /** Clean pieces survive the strip-and-filter step unchanged. */
  lemma {:induction false} StripNonEmptyClean(parts: seq<string>)
    requires forall i :: 0 <= i < |parts| ==> parts[i] != "" && Trimmed(parts[i])
    ensures StripNonEmpty(parts) == parts
  {
    if |parts| > 0 {
      StripPadded("", parts[0], "");
      assert "" + parts[0] + "" == parts[0];
      StripNonEmptyClean(parts[1..]);
    }
  }

  /** A clean region name: non-empty, no surrounding whitespace, no comma. */
  predicate CleanName(r: string) {
    r != "" && Trimmed(r) && ',' !in r
  }

  /** A join of non-empty pieces starts with the first piece's first character and ends with the last piece's last one. */
  lemma {:induction false} JoinEnds(parts: seq<string>, sep: char)
    requires |parts| >= 1
    requires forall i :: 0 <= i < |parts| ==> parts[i] != ""
    ensures |Join(parts, sep)| > 0
    ensures Join(parts, sep)[0] == parts[0][0]
    ensures Join(parts, sep)[|Join(parts, sep)| - 1] == parts[|parts| - 1][|parts[|parts| - 1]| - 1]
  {
    if |parts| > 1 {
      JoinEnds(parts[1..], sep);
      var j := Join(parts[1..], sep);
      assert Join(parts, sep) == parts[0] + [sep] + j;
    }
  }

  /** Writing clean names separated by commas and parsing the setting gives the names back. */
  lemma ParseJoin(rs: seq<string>)
    requires |rs| >= 1
    requires forall i :: 0 <= i < |rs| ==> CleanName(rs[i])
    ensures ParseRegionList(Join(rs, ',')) == rs
  {
    var j := Join(rs, ',');
    JoinEnds(rs, ',');
    assert Trimmed(j);
    StripPadded("", j, "");
    assert "" + j + "" == j;
    SplitJoin(rs, ',');
    StripNonEmptyClean(rs);
  }

  /** Parsing is a normal form: writing a parsed list back and parsing again changes nothing. */
  lemma ParseIdempotent(raw: string)
    requires ParseRegionList(raw) != []
    ensures ParseRegionList(Join(ParseRegionList(raw), ',')) == ParseRegionList(raw)
  {
    ParseJoin(ParseRegionList(raw));
  }

  // ---------------------------------------------------------------------------
  // Keep-alive visit list
  // ---------------------------------------------------------------------------

  /** The base URL is one the keep-alive list should hold: the main base or some region's tenant base. */
  predicate Wanted(main: string, regions: seq<string>, b: string) {
    b == main || exists i :: 0 <= i < |regions| && b == TenantBase(regions[i])
  }

  /** No base URL occurs twice. */
  predicate Distinct(bases: seq<string>) {
    forall p, q :: 0 <= p < q < |bases| ==> bases[p] != bases[q]
  }

  /** `b` is the tenant base of one of the first `n` regions. */
  predicate SeenBy(regions: seq<string>, n: int, b: string) {
    exists k :: 0 <= k < n && k < |regions| && TenantBase(regions[k]) == b
  }

  /** Some region with base `b` comes before the first region with base `c`. */
  predicate FirstBefore(regions: seq<string>, b: string, c: string) {
    exists k :: 0 <= k < |regions| && TenantBase(regions[k]) == b && !SeenBy(regions, k + 1, c)
  }

  /**
   * The keep-alive list: the main base first, then each region's tenant
   * base, appended only when it is not already listed; the region bases
   * keep the order of their first occurrence in the region list.
   */
  method VisitBases(main: string, regions: seq<string>) returns (bases: seq<string>)
    ensures |bases| >= 1 && bases[0] == main
    ensures Distinct(bases)
    ensures forall k :: 0 <= k < |bases| ==> Wanted(main, regions, bases[k])
    ensures forall i :: 0 <= i < |regions| ==> TenantBase(regions[i]) in bases
    ensures |bases| <= |regions| + 1
    ensures forall p, q :: 1 <= p < q < |bases| ==> FirstBefore(regions, bases[p], bases[q])
  {
    bases := [main];
    var i := 0;
    while i < |regions|
      invariant 0 <= i <= |regions|
      invariant |bases| >= 1 && bases[0] == main
      invariant Distinct(bases)
      invariant forall k :: 1 <= k < |bases| ==> SeenBy(regions, i, bases[k])
      invariant forall j :: 0 <= j < i ==> TenantBase(regions[j]) in bases
      invariant |bases| <= i + 1
      invariant forall p, q :: 1 <= p < q < |bases| ==> FirstBefore(regions, bases[p], bases[q])
    {
      var u := TenantBase(regions[i]);
      if u !in bases {
        NewBaseComesLast(regions, bases, i);
        bases := bases + [u];
      }
      SeenByGrows(regions, bases, i);
      i := i + 1;
    }
    forall k | 1 <= k < |bases|
      ensures Wanted(main, regions, bases[k])
    {
      assert SeenBy(regions, i, bases[k]);
      var j :| 0 <= j < i && j < |regions| && TenantBase(regions[j]) == bases[k];
    }
  }

  /** A base first met at region `i` comes after every base already listed. */
  lemma NewBaseComesLast(regions: seq<string>, bases: seq<string>, i: int)
    requires 0 <= i < |regions| && TenantBase(regions[i]) !in bases
    requires forall j :: 0 <= j < i ==> TenantBase(regions[j]) in bases
    requires forall k :: 1 <= k < |bases| ==> SeenBy(regions, i, bases[k])
    ensures forall p :: 1 <= p < |bases| ==> FirstBefore(regions, bases[p], TenantBase(regions[i]))
  {
    var u := TenantBase(regions[i]);
    forall p | 1 <= p < |bases|
      ensures FirstBefore(regions, bases[p], u)
    {
      assert SeenBy(regions, i, bases[p]);
      var k :| 0 <= k < i && k < |regions| && TenantBase(regions[k]) == bases[p];
      forall j | 0 <= j < k + 1
        ensures TenantBase(regions[j]) != u
      {
        assert TenantBase(regions[j]) in bases;
      }
    }
  }

  /** Every listed base seen among the first `i` regions, or at region `i`, is seen among the first `i + 1`. */
  lemma SeenByGrows(regions: seq<string>, bases: seq<string>, i: int)
    requires 0 <= i < |regions|
    requires forall k :: 1 <= k < |bases| ==> SeenBy(regions, i, bases[k]) || bases[k] == TenantBase(regions[i])
    ensures forall k :: 1 <= k < |bases| ==> SeenBy(regions, i + 1, bases[k])
  {
    forall k | 1 <= k < |bases|
      ensures SeenBy(regions, i + 1, bases[k])
    {
      if bases[k] == TenantBase(regions[i]) {
        assert TenantBase(regions[i]) == bases[k];
      } else {
        assert SeenBy(regions, i, bases[k]);
        var j :| 0 <= j < i && j < |regions| && TenantBase(regions[j]) == bases[k];
      }
    }
  }
}

=== FILE: page.dfy ===
/**
 * The page as the login script sees it: a URL and the set of selectors that
 * are visible.  Every DOM probe of the script is "is this selector visible";
 * a probe that throws or times out counts as not visible.
 */
module Page {
  import opened Wrappers
  import opened Strings
  import opened Urls

  /** A Playwright selector, compared as text. */
  type Selector = string

  /** The selectors visible on the page at the moment of the probe. */
  type Visible = set<Selector>

  // ---------------------------------------------------------------------------
  // First visible candidate
  // ---------------------------------------------------------------------------

  /**
   * Index of the first candidate, in list order, that is visible; the
   * "try each selector until one is visible" rule shared by every probe.
   */
  function FirstVisible(cands: seq<Selector>, visible: Visible): (r: Option<nat>)
    ensures r.Some? ==> r.value < |cands| && cands[r.value] in visible
    ensures r.Some? ==> forall j :: 0 <= j < r.value ==> cands[j] !in visible
    ensures r.None? ==> forall j :: 0 <= j < |cands| ==> cands[j] !in visible
  {
    if |cands| == 0 then None
    else if cands[0] in visible then Some(0)
    else
      match FirstVisible(cands[1..], visible)
      case None => None
      case Some(i) => Some(i + 1)
  }

  /**
   * `click(page, sels)`: the selector that gets clicked, if any; the script
   * reports success exactly when one is.
   */
  function Click(cands: seq<Selector>, visible: Visible): (clicked: Option<Selector>)
    ensures clicked.Some? <==> exists j :: 0 <= j < |cands| && cands[j] in visible
    ensures clicked.Some? ==> clicked.value in visible
    ensures clicked.Some? ==>
      exists j :: 0 <= j < |cands| && cands[j] == clicked.value && (forall i :: 0 <= i < j ==> cands[i] !in visible)
  {
    match FirstVisible(cands, visible)
    case None => None
    case Some(i) => Some(cands[i])
  }

  // ---------------------------------------------------------------------------
  // The welcome page and the final verdict
  // ---------------------------------------------------------------------------

  /** Affordances of the tenant's welcome page, which is a login page even without `/signin` in its URL. */
  const WelcomeSelectors: seq<Selector> := [
    "text=Welcome to ClawCloud Run",
    "text=Welcome to ClawCloud",
    "button:has-text(\"GitHub\")",
    "a:has-text(\"GitHub\")",
    "button:has-text(\"Google\")",
    "a:has-text(\"Google\")"
  ]

  /** The GitHub buttons on the tenant's entry page. */
  const GitHubEntrySelectors: seq<Selector> := [
    "button:has-text(\"GitHub\")",
    "a:has-text(\"GitHub\")",
    "[data-provider=\"github\"]"
  ]

  /** `is_clawcloud_welcome_login_ui`: some welcome affordance is visible. */
  predicate IsWelcomeLoginUi(visible: Visible) {
    FirstVisible(WelcomeSelectors, visible).Some?
  }

  /** The welcome test is plain membership: true exactly when one of the six selectors is visible. */
  lemma WelcomeIsAnyVisible(visible: Visible)
    ensures IsWelcomeLoginUi(visible) <==> exists s :: s in WelcomeSelectors && s in visible
  {
    if exists s :: s in WelcomeSelectors && s in visible {
      var s :| s in WelcomeSelectors && s in visible;
      var j :| 0 <= j < |WelcomeSelectors| && WelcomeSelectors[j] == s;
    }
  }

  /**
   * `assert_runcloud_logged_in`: the single verdict of the run.  A tenant
   * URL, not a sign-in URL, and no welcome affordance on the page.
   */
  predicate AssertLoggedIn(url: string, visible: Visible) {
    if !IsRunCloudUrl(url) then false
    else if IsSigninUrl(url) then false
    else !IsWelcomeLoginUi(visible)
  }

  /**
   * The verdict in terms of the tenant-origin shape and the selector set:
   * both directions.
   */
  lemma LoggedInExactly(url: string, visible: Visible)
    ensures AssertLoggedIn(url, visible) <==>
      && (exists x, y, d :: TenantLabels(x, y, d) && StartsWith(url, TenantOrigin(x, y, d)))
      && !IsSigninUrl(url)
      && forall s :: s in WelcomeSelectors ==> s !in visible
  {
    RunCloudUrlShape(url);
    WelcomeIsAnyVisible(visible);
  }

  /** Any visible welcome affordance forces the verdict to false, whatever the URL. */
  lemma WelcomeForcesLoggedOut(url: string, visible: Visible, s: Selector)
    requires s in WelcomeSelectors && s in visible
    ensures !AssertLoggedIn(url, visible)
  {
    WelcomeIsAnyVisible(visible);
  }

  /** The verdict reads the page only through the welcome selectors: other visible elements never matter. */
  lemma VerdictIgnoresOtherSelectors(url: string, visible: Visible, extra: Visible)
    requires forall s :: s in extra ==> s !in WelcomeSelectors
    ensures AssertLoggedIn(url, visible + extra) == AssertLoggedIn(url, visible)
  {
    WelcomeIsAnyVisible(visible);
    WelcomeIsAnyVisible(visible + extra);
  }

  // ---------------------------------------------------------------------------
  // OAuth consent
  // ---------------------------------------------------------------------------

  /** GitHub's consent page. */
  const OAuthAuthorizePath := "github.com/login/oauth/authorize"

  /** The authorize buttons, tried first (the script lists one of them twice). */
  const AuthorizeSelectors: seq<Selector> := [
    "button[name=\"authorize\"]",
    "button:has-text(\"Authorize\")",
    "button:has-text(\"Authorize\")",
    "input[name=\"authorize\"]",
    "input[type=\"submit\"]"
  ]

  /** The wording used when the consent button says Continue or Allow. */
  const ContinueSelectors: seq<Selector> := [
    "button:has-text(\"Continue\")",
    "button:has-text(\"Allow\")"
  ]

  datatype ConsentStep =
    | NotOnConsent              // the page is not GitHub's consent page: nothing is done
    | Activated(sel: Selector)  // this control was clicked
    | NoControl                 // consent page, but none of the controls is visible

  /** `oauth(page)`: on the consent page, click the first visible authorize control, else the first visible continue control. */
  function Consent(url: string, visible: Visible): (step: ConsentStep)
    ensures step.NotOnConsent? <==> !Contains(url, OAuthAuthorizePath)
    ensures step.Activated? ==> step.sel in visible && (step.sel in AuthorizeSelectors || step.sel in ContinueSelectors)
    ensures step.Activated? && step.sel in ContinueSelectors ==> forall s :: s in AuthorizeSelectors ==> s !in visible
    ensures step.Activated? && step.sel in AuthorizeSelectors ==> Click(AuthorizeSelectors, visible) == Some(step.sel)
    ensures step.Activated? && Click(AuthorizeSelectors, visible).None? ==> Click(ContinueSelectors, visible) == Some(step.sel)
    ensures step.NoControl? <==>
      Contains(url, OAuthAuthorizePath) && forall s :: s in AuthorizeSelectors + ContinueSelectors ==> s !in visible
  {
    if !Contains(url, OAuthAuthorizePath) then NotOnConsent
    else
      match Click(AuthorizeSelectors, visible)
      case Some(s) => Activated(s)
      case None =>
        match Click(ContinueSelectors, visible)
        case Some(s) => Activated(s)
        case None => NoControl
  }
}

=== FILE: redirect.dfy ===
/**
 * `wait_redirect`: after GitHub, wait for the browser to come back to a
 * regional tenant in a logged-in state.  Each second is one observation of
 * the page; the loop answers consent pages, records the region of every
 * tenant URL it sees, and stops at the first page the final verdict accepts.
 */
module Redirect {
  import opened Wrappers
  import opened Urls
  import opened Region
  import opened Page

  /** One look at the page: its URL and the selectors visible on it. */
  datatype Snapshot = Snapshot(url: string, visible: Visible)

  /** The number of one-second ticks the script waits. */
  const RedirectWait := 120

  /** What one tick does. */
  datatype RedirectTick = RedirectTick(
    consent: ConsentStep,          // the consent handling on this page
    state: RegionState,            // region knowledge after the tick
    success: bool,                 // the verdict accepted the page: the loop ends
    clicked: Option<Selector>)     // the GitHub button clicked again, if any

  /**
   * One tick of the loop.  The script retries the GitHub button only when
   * the tenant page is a sign-in or welcome page; on a tenant URL that the
   * verdict refuses this condition always holds, so the retry happens on
   * every refused tenant page.
   */
  function RedirectStep(st: RegionState, s: Snapshot): (t: RedirectTick)
    ensures t.consent == Consent(s.url, s.visible)
    ensures t.success <==> AssertLoggedIn(s.url, s.visible)
    ensures t.state == Track(st, s)
    ensures t.clicked.Some? <==>
      IsRunCloudUrl(s.url) && !AssertLoggedIn(s.url, s.visible)
      && exists j :: 0 <= j < |GitHubEntrySelectors| && GitHubEntrySelectors[j] in s.visible
    ensures t.clicked.Some? ==> t.clicked.value in s.visible && t.clicked.value in GitHubEntrySelectors
    ensures t.clicked.Some? ==> t.clicked == Click(GitHubEntrySelectors, s.visible)
  {
    var consent := Consent(s.url, s.visible);
    if !IsRunCloudUrl(s.url) then RedirectTick(consent, st, false, None)
    else
      var st' := DetectRegion(st, s.url).state;
      if AssertLoggedIn(s.url, s.visible) then RedirectTick(consent, st', true, None)
      else if IsSigninUrl(s.url) || IsWelcomeLoginUi(s.visible) then RedirectTick(consent, st', false, Click(GitHubEntrySelectors, s.visible))
      else RedirectTick(consent, st', false, None)
  }

  /** Region knowledge after one tick: a tenant URL is handed to detection, any other URL leaves it alone. */
  function Track(st: RegionState, s: Snapshot): RegionState {
    if IsRunCloudUrl(s.url) then DetectRegion(st, s.url).state else st
  }

  /** Knowledge threaded through a run of ticks by a per-tick update. */
  function Fold(st: RegionState, snaps: seq<Snapshot>, track: (RegionState, Snapshot) -> RegionState): RegionState
    decreases |snaps|
  {
    if |snaps| == 0 then st
    else track(Fold(st, snaps[..|snaps| - 1], track), snaps[|snaps| - 1])
  }

  /** Region knowledge after a run of ticks. */
  function DetectThrough(st: RegionState, snaps: seq<Snapshot>): RegionState {
    Fold(st, snaps, Track)
  }

  /** The verdict accepts the snapshot. */
  predicate Accepted(s: Snapshot) {
    AssertLoggedIn(s.url, s.visible)
  }

  /**
   * The shape of the loop, for any per-tick update and stopping test: it
   * stops at the first accepted tick, having applied the update to every
   * tick up to and including that one.
   */
  method WaitFirst(st: RegionState, snaps: seq<Snapshot>, track: (RegionState, Snapshot) -> RegionState, accept: Snapshot -> bool)
    returns (ok: bool, at: nat, st': RegionState)
    ensures ok <==> exists i :: 0 <= i < |snaps| && accept(snaps[i])
    ensures ok ==> at < |snaps| && accept(snaps[at]) && forall i :: 0 <= i < at ==> !accept(snaps[i])
    ensures ok ==> st' == Fold(st, snaps[..at + 1], track)
    ensures !ok ==> st' == Fold(st, snaps, track)
  {
    var i := 0;
    st' := st;
    while i < |snaps|
      invariant 0 <= i <= |snaps|
      invariant st' == Fold(st, snaps[..i], track)
      invariant forall j :: 0 <= j < i ==> !accept(snaps[j])
    {
      assert snaps[..i + 1][..i] == snaps[..i];
      st' := track(st', snaps[i]);
      if accept(snaps[i]) {
        return true, i, st';
      }
      i := i + 1;
    }
    assert snaps[..i] == snaps;
    return false, 0, st';
  }

  /**
   * The loop over at most 120 observations.  It succeeds exactly when some
   * observation is accepted; `at` is the first such one, and `st'` is the
   * region knowledge gathered up to and including the tick that stopped
   * the loop.
   */
  method WaitRedirect(st: RegionState, snaps: seq<Snapshot>) returns (ok: bool, at: nat, st': RegionState)
    requires |snaps| <= RedirectWait
    ensures ok <==> exists i :: 0 <= i < |snaps| && Accepted(snaps[i])
    ensures ok ==> at < |snaps| && Accepted(snaps[at]) && forall i :: 0 <= i < at ==> !Accepted(snaps[i])
    ensures ok ==> st' == DetectThrough(st, snaps[..at + 1])
    ensures !ok ==> st' == DetectThrough(st, snaps)
  {
    ok, at, st' := WaitFirst(st, snaps, Track, Accepted);
  }

  /**
   * A run of refused tenant pages that ends on a tenant origin leaves that
   * origin as the base URL the later visits start from, whatever was
   * detected before.
   */
  lemma LastTenantWins(st: RegionState, snaps: seq<Snapshot>, x: string, y: string, d: string, tail: string, v: Visible)
    requires TenantLabels(x, y, d)
    requires |tail| > 0 ==> tail[0] in "/?#"
    ensures GetBaseUrl(None, DetectThrough(st, snaps + [Snapshot(TenantOrigin(x, y, d) + tail, v)])) == TenantOrigin(x, y, d)
  {
    var all := snaps + [Snapshot(TenantOrigin(x, y, d) + tail, v)];
    assert all[..|all| - 1] == snaps;
    TenantUrlRegion(DetectThrough(st, snaps), x, y, d, tail);
    DetectedBaseWins(DetectThrough(st, snaps), x, y, d, tail);
  }

  /** Pages away from the tenants (GitHub, consent) leave the region knowledge alone. */
  lemma {:induction false} ForeignPagesKeepState(st: RegionState, snaps: seq<Snapshot>)
    requires forall i :: 0 <= i < |snaps| ==> !IsRunCloudUrl(snaps[i].url)
    ensures DetectThrough(st, snaps) == st
  {
    if |snaps| > 0 {
      ForeignPagesKeepState(st, snaps[..|snaps| - 1]);
    }
  }

  /** A consent page is never accepted and never triggers a GitHub retry. */
  lemma ConsentPageWaits(st: RegionState, v: Visible, tail: string)
    ensures !RedirectStep(st, Snapshot(Https + OAuthAuthorizePath + tail, v)).success
    ensures RedirectStep(st, Snapshot(Https + OAuthAuthorizePath + tail, v)).clicked.None?
    ensures !RedirectStep(st, Snapshot(Https + OAuthAuthorizePath + tail, v)).consent.NotOnConsent?
  {
    ConsentUrlShape(tail);
  }

  /** A consent URL names the consent path and is not a tenant URL. */
  lemma ConsentUrlShape(tail: string)
    ensures Strings.Contains(Https + OAuthAuthorizePath + tail, OAuthAuthorizePath)
    ensures !IsRunCloudUrl(Https + OAuthAuthorizePath + tail)
  {
    var url := Https + OAuthAuthorizePath + tail;
    assert url[|Https|..|Https| + |OAuthAuthorizePath|] == OAuthAuthorizePath;
    assert Strings.OccursAt(url, OAuthAuthorizePath, |Https|);
    var rest := OAuthAuthorizePath[7..] + tail;
    assert OAuthAuthorizePath == "github" + ['.'] + OAuthAuthorizePath[7..];
    assert url == Https + ("github" + ['.'] + rest);
    GitHubIsNotTenant(rest);
  }

  /** A URL on `github.<anything>` is not a tenant URL: the first letter run ends in `.`, not `-`. */
  lemma GitHubIsNotTenant(rest: string)
    ensures !IsRunCloudUrl(Https + ("github" + ['.'] + rest))
  {
    var a := "github" + ['.'] + rest;
    assert (Https + a)[|Https|..] == a;
    Strings.SpanUpTo("github", '.', rest, Strings.LowerLetter);
  }
}

=== FILE: region.dfy ===
/**
 * Region resolution: which regional tenant the session is bound to, and
 * which base URL the post-login visits start from.  The script keeps the
 * detected region and its base URL as two mutable attributes; here they
 * are a value threaded through the calls.
 */
module Region {
  import opened Wrappers
  import opened Strings
  import opened Urls

  /** The region-less console host, `console.run.claw.cloud`. */
  const ConsoleHost := "console" + TenantSuffix

  /** The region-less console the sign-in flow starts from when no region is forced. */
  const LoginEntryUrl := Https + ConsoleHost

  /** The tenant apex, which the script refuses explicitly as a region host. */
  const TenantApex := "run.claw.cloud"

  /** `https://<region>.run.claw.cloud`. */
  function TenantBase(region: string): string {
    Https + (region + TenantSuffix)
  }

  // ---------------------------------------------------------------------------
  // Configuration: the forced region
  // ---------------------------------------------------------------------------

  /** A string strips to nothing exactly when it is all whitespace. */
  lemma StripEmpty(s: string)
    ensures Strip(s) == "" <==> AllIn(s, Space)
  {
    var r := Strip(s);
    var i :| 0 <= i <= |s| - |r| && PaddedAt(s, r, i);
    if r == "" {
      forall k | 0 <= k < |s|
        ensures IsSpace(s[k])
      {
        PadIsSpace(s, r, i, k);
      }
    }
    if AllIn(s, Space) {
      assert s[..0] == [] && s[0..0] == "" && s[0..] == s;
      assert PaddedAt(s, "", 0);
      StripUnique(s, "", 0);
    }
  }

  /**
   * The operator-forced region: the stripped setting, or none when the
   * setting is missing (passed as "") or blank.
   */
  function ForcedRegion(raw: string): (forced: Option<string>)
    ensures forced.None? <==> AllIn(raw, Space)
    ensures forced.Some? ==> forced.value != "" && Trimmed(forced.value)
    ensures forced.Some? ==> exists i :: 0 <= i <= |raw| - |forced.value| && PaddedAt(raw, forced.value, i)
  {
    StripEmpty(raw);
    var s := Strip(raw);
    if s == "" then None else Some(s)
  }

  /** The forced region is the setting with its surrounding whitespace removed, and no other string. */
  lemma ForcedRegionIsStripped(raw: string, r: string)
    requires ForcedRegion(raw) == Some(r)
    ensures r == Strip(raw)
  {
    var i :| 0 <= i <= |raw| - |r| && PaddedAt(raw, r, i);
    StripUnique(raw, r, i);
  }

  /**
   * The forced region's base URL, present when the forced region is a
   * non-empty string; the region reads back from between `https://` and the
   * tenant suffix.
   */
  function ForcedBase(forced: Option<string>): (base: Option<string>)
    ensures base.Some? <==> forced.Some? && forced.value != ""
    ensures base.Some? ==> StartsWith(base.value, Https) && EndsWith(base.value, TenantSuffix)
    ensures base.Some? ==>
      |Https| + |TenantSuffix| <= |base.value| && base.value[|Https|..|base.value| - |TenantSuffix|] == forced.value
  {
    if forced.Some? && forced.value != "" then
      var b := TenantBase(forced.value);
      assert b[..|Https|] == Https;
      assert b[|b| - |TenantSuffix|..] == TenantSuffix;
      assert b[|Https|..|b| - |TenantSuffix|] == forced.value;
      Some(b)
    else None
  }

  /** The entry page: `/signin` on the forced region's base, otherwise on the console. */
  function SigninUrl(forced: Option<string>): (url: string)
    ensures ForcedBase(forced).Some? ==> url == ForcedBase(forced).value + "/signin"
    ensures ForcedBase(forced).None? ==> url == LoginEntryUrl + "/signin"
  {
    if forced.Some? && forced.value != "" then TenantBase(forced.value) + "/signin"
    else LoginEntryUrl + "/signin"
  }

  /** The entry page is itself a sign-in page, so the final verdict can never accept it. */
  lemma EntryIsSigninUrl(forced: Option<string>)
    ensures IsSigninUrl(SigninUrl(forced))
  {
    var pre := if ForcedBase(forced).Some? then ForcedBase(forced).value else LoginEntryUrl;
    assert SigninUrl(forced) == pre + "/signin" + "";
    assert FoldedAt("/signin", "/signin", 0);
    SigninSegmentDecides(pre, "/signin", "");
  }

  // ---------------------------------------------------------------------------
  // Detection
  // ---------------------------------------------------------------------------

  /** What the script has learnt about the region so far: `detected_region` and `region_base_url`. */
  datatype RegionState = RegionState(detected: Option<string>, baseUrl: Option<string>)

  const Undetected := RegionState(None, None)

  /**
   * The region named by a host: the host with every `.run.claw.cloud`
   * deleted, provided it ends in that suffix and is not the apex.
   */
  function RegionOfHost(host: string): Option<string> {
    if EndsWith(host, TenantSuffix) && host != TenantApex then Some(RemoveAll(host, TenantSuffix)) else None
  }

  /** The outcome of one detection: the new state and the region returned to the caller. */
  datatype Detection = Detection(state: RegionState, region: Option<string>)

  /**
   * `detect_region(url)`: when the network location is a tenant host the
   * region and `https://` + host are recorded; otherwise nothing changes.
   * The explicit apex test never decides anything, because the apex does
   * not end in `.run.claw.cloud`.
   */
  function DetectRegion(st: RegionState, url: string): (d: Detection)
    ensures d.region.None? <==> !EndsWith(Netloc(url), TenantSuffix)
    ensures d.region.None? ==> d.state == st
    ensures d.region.Some? ==> d.state == RegionState(d.region, Some(Https + Netloc(url)))
  {
    var host := Netloc(url);
    match RegionOfHost(host)
    case None => Detection(st, None)
    case Some(region) => Detection(RegionState(Some(region), Some(Https + host)), Some(region))
  }

  /** The apex `run.claw.cloud` itself names no region: it is shorter than the suffix it would have to end in. */
  lemma ApexHasNoRegion(st: RegionState, tail: string)
    requires |tail| > 0 ==> tail[0] in "/?#"
    ensures DetectRegion(st, Https + TenantApex + tail) == Detection(st, None)
  {
    NoDelimiters(TenantApex);
    NetlocOfHttps(TenantApex, tail);
  }

  /**
   * When the suffix occurs in the host only at its end, the detected region
   * rebuilds the recorded base URL.
   */
  lemma SingleSuffixRoundTrip(st: RegionState, url: string)
    requires EndsWith(Netloc(url), TenantSuffix)
    requires OnlyAtEnd(Netloc(url), TenantSuffix)
    ensures DetectRegion(st, url).region.Some?
    ensures TenantBase(DetectRegion(st, url).region.value) == DetectRegion(st, url).state.baseUrl.value
  {
    var host := Netloc(url);
    var r := host[..|host| - |TenantSuffix|];
    assert host == r + TenantSuffix;
    RemoveAllLoneSuffix(r, TenantSuffix);
  }

  /** A host label without dots cannot hide a second copy of the suffix. */
  lemma DotFreeLabelOnlyAtEnd(r: string)
    requires '.' !in r
    ensures OnlyAtEnd(r + TenantSuffix, TenantSuffix)
  {
    var s := r + TenantSuffix;
    forall i | 0 <= i < |s| - |TenantSuffix|
      ensures !OccursAt(s, TenantSuffix, i)
    {
      assert s[i] == r[i];
      assert s[i..i + |TenantSuffix|][0] == s[i];
    }
  }

  /** A host name free of `/`, `?` and `#` is one network location. */
  lemma NoDelimiters(host: string)
    requires '/' !in host && '?' !in host && '#' !in host
    ensures AllIn(host, AuthorityChar)
  {
  }

  /**
   * A dot-free region name with the suffix appended is a host that reads
   * back as that region.
   */
  lemma TenantHost(region: string, tail: string)
    requires '.' !in region && '/' !in region && '?' !in region && '#' !in region
    requires |tail| > 0 ==> tail[0] in "/?#"
    ensures Netloc(Https + (region + TenantSuffix) + tail) == region + TenantSuffix
    ensures EndsWith(region + TenantSuffix, TenantSuffix)
    ensures RegionOfHost(region + TenantSuffix) == Some(region)
  {
    var host := region + TenantSuffix;
    NoDelimiters(host);
    NetlocOfHttps(host, tail);
    DotFreeLabelOnlyAtEnd(region);
    RemoveAllLoneSuffix(region, TenantSuffix);
    assert host[|host| - |TenantSuffix|..] == TenantSuffix;
  }

  /**
   * Tenant URLs and region detection agree: a tenant origin followed by a
   * path, query, fragment or nothing passes the tenant-URL test, yields the
   * region `x-y-d`, and records the origin itself as the base URL.
   */
  lemma TenantUrlRegion(st: RegionState, x: string, y: string, d: string, tail: string)
    requires TenantLabels(x, y, d)
    requires |tail| > 0 ==> tail[0] in "/?#"
    ensures IsRunCloudUrl(TenantOrigin(x, y, d) + tail)
    ensures DetectRegion(st, TenantOrigin(x, y, d) + tail).region == Some(x + "-" + y + "-" + d)
    ensures DetectRegion(st, TenantOrigin(x, y, d) + tail).state.baseUrl == Some(TenantOrigin(x, y, d))
    ensures TenantBase(x + "-" + y + "-" + d) == TenantOrigin(x, y, d)
  {
    TenantOriginAccepted(x, y, d, tail);
    var region := x + "-" + y + "-" + d;
    LabelsHaveNoPunctuation(x, y, d);
    TenantHost(region, tail);
    OriginIsHost(x, y, d, tail);
    TenantBaseOfLabels(x, y, d);
  }

  lemma LabelsHaveNoPunctuation(x: string, y: string, d: string)
    requires TenantLabels(x, y, d)
    ensures var r := x + "-" + y + "-" + d; '.' !in r && '/' !in r && '?' !in r && '#' !in r
  {
  }

  lemma TenantBaseOfLabels(x: string, y: string, d: string)
    ensures TenantBase(x + "-" + y + "-" + d) == TenantOrigin(x, y, d)
  {
    Regroup3(Https, x, y, d, TenantSuffix);
  }

  lemma Regroup3(h: string, x: string, y: string, d: string, s: string)
    ensures h + ((x + "-" + y + "-" + d) + s) == h + x + "-" + y + "-" + d + s
  {
  }

  /**
   * When the suffix repeats, deletion removes both copies and the region no
   * longer rebuilds the base URL: `a.run.claw.cloud.run.claw.cloud` gives
   * region `a` but base `https://a.run.claw.cloud.run.claw.cloud`.
   */
  lemma RepeatedSuffixBreaksRoundTrip()
    ensures RegionOfHost(['a'] + TenantSuffix + TenantSuffix) == Some("a")
    ensures TenantBase("a") != Https + (['a'] + TenantSuffix + TenantSuffix)
  {
    DoubledPattern('a', TenantSuffix);
    assert |TenantBase("a")| < |Https + (['a'] + TenantSuffix + TenantSuffix)|;
  }

  /** Deleting a pattern that follows one non-pattern character twice leaves that character. */
  lemma DoubledPattern(c: char, pat: string)
    requires |pat| > 0 && c != pat[0]
    ensures RemoveAll([c] + pat + pat, pat) == [c]
    ensures EndsWith([c] + pat + pat, pat)
  {
    RemoveAllLeading(pat, "");
    assert pat + "" == pat;
    RemoveAllLeading(pat, pat);
    RemoveAllKeeps(c, pat + pat, pat);
    assert [c] + pat + pat == [c] + (pat + pat);
    var h := [c] + pat + pat;
    assert h[|h| - |pat|..] == pat;
  }

  /**
   * A URL can pass the tenant-URL test while naming no region: only the
   * start of the URL is anchored, while detection reads the whole host,
   * which here ends in some other domain.
   */
  lemma TenantPrefixWithoutRegion(st: RegionState, x: string, y: string, d: string, e: string)
    requires TenantLabels(x, y, d)
    requires '/' !in e && '?' !in e && '#' !in e
    requires |e| > 0 && e[|e| - 1] != 'd'
    ensures IsRunCloudUrl(TenantOrigin(x, y, d) + e + "/")
    ensures DetectRegion(st, TenantOrigin(x, y, d) + e + "/").region.None?
  {
    TenantOriginAccepted(x, y, d, e + "/");
    Assoc(TenantOrigin(x, y, d), e, "/");
    LabelsHaveNoPunctuation(x, y, d);
    var host := (x + "-" + y + "-" + d) + TenantSuffix + e;
    OriginIsHost(x, y, d, e + "/");
    Regroup4(Https, (x + "-" + y + "-" + d) + TenantSuffix, e, "/");
    SuffixedHost(x + "-" + y + "-" + d, e);
    NetlocOfHttps(host, "/");
    EndsOtherwise((x + "-" + y + "-" + d) + TenantSuffix, e);
  }

  /** A host built from delimiter-free parts around the suffix is one network location. */
  lemma SuffixedHost(r: string, e: string)
    requires '/' !in r && '?' !in r && '#' !in r
    requires '/' !in e && '?' !in e && '#' !in e
    ensures AllIn(r + TenantSuffix + e, AuthorityChar)
  {
    NoDelimiters(r + TenantSuffix + e);
  }

  lemma Assoc(a: string, b: string, c: string)
    ensures a + b + c == a + (b + c)
  {
  }

  lemma Regroup4(h: string, a: string, e: string, t: string)
    ensures h + a + (e + t) == h + (a + e) + t
  {
  }

  /** A host whose last character is not `d` does not end in `.run.claw.cloud`. */
  lemma EndsOtherwise(p: string, e: string)
    requires |e| > 0 && e[|e| - 1] != 'd'
    ensures !EndsWith(p + e, TenantSuffix)
  {
    var h := p + e;
    assert h[|h| - 1] == e[|e| - 1];
    if |TenantSuffix| <= |h| {
      assert h[|h| - |TenantSuffix|..][|TenantSuffix| - 1] == h[|h| - 1];
    }
  }

  /** For instance `https://ap-southeast-1.run.claw.cloud.example.com/`. */
  lemma ForeignHostExample(st: RegionState)
    ensures IsRunCloudUrl(TenantOrigin("ap", "southeast", "1") + ".example.com" + "/")
    ensures DetectRegion(st, TenantOrigin("ap", "southeast", "1") + ".example.com" + "/").region.None?
  {
    TenantPrefixWithoutRegion(st, "ap", "southeast", "1", ".example.com");
  }

  // ---------------------------------------------------------------------------
  // Base URL
  // ---------------------------------------------------------------------------

  /**
   * `get_base_url()`: the forced region's base first, then the detected
   * base, then scheme and network location of the entry page.
   */
  function GetBaseUrl(forced: Option<string>, st: RegionState): (base: string)
    ensures ForcedBase(forced).Some? ==> base == ForcedBase(forced).value
    ensures ForcedBase(forced).None? && st.baseUrl.Some? && st.baseUrl.value != "" ==> base == st.baseUrl.value
    ensures ForcedBase(forced).None? && (st.baseUrl.None? || st.baseUrl.value == "") ==> base == LoginEntryUrl
  {
    if ForcedBase(forced).Some? then ForcedBase(forced).value
    else if st.baseUrl.Some? && st.baseUrl.value != "" then st.baseUrl.value
    else
      EntryOrigin();
      Origin(SigninUrl(forced))
  }

  /** The console entry page's origin is the console itself. */
  lemma EntryOrigin()
    ensures Origin(LoginEntryUrl + "/signin") == LoginEntryUrl
  {
    ConsoleHostIsAuthority();
    NetlocOfHttps(ConsoleHost, "/signin");
    assert "https" + "://" == Https;
  }

  lemma ConsoleHostIsAuthority()
    ensures AllIn(ConsoleHost, AuthorityChar)
  {
    NoDelimiters(ConsoleHost);
  }

  /**
   * Forcing a region and reading its region back from the resolved base URL
   * is the identity for region names free of dots and URL delimiters.
   */
  lemma ForcedRegionRoundTrip(region: string, st: RegionState)
    requires region != ""
    requires '.' !in region && '/' !in region && '?' !in region && '#' !in region
    ensures RegionOfHost(Netloc(GetBaseUrl(Some(region), st))) == Some(region)
  {
    assert GetBaseUrl(Some(region), st) == Https + (region + TenantSuffix) + "";
    TenantHost(region, "");
  }

  /**
   * Without a forced region, a detection on a tenant URL makes that URL's
   * origin the base URL.
   */
  lemma DetectedBaseWins(st: RegionState, x: string, y: string, d: string, tail: string)
    requires TenantLabels(x, y, d)
    requires |tail| > 0 ==> tail[0] in "/?#"
    ensures GetBaseUrl(None, DetectRegion(st, TenantOrigin(x, y, d) + tail).state) == TenantOrigin(x, y, d)
  {
    TenantUrlRegion(st, x, y, d, tail);
  }
}

=== FILE: rotation.dfy ===
/**
 * Rotating the GitHub session cookie after a successful login: which
 * cookie is taken from the browser, and where its value goes.
 */
module Rotation {
  import opened Wrappers
  import opened Strings

  /** A browser cookie; a missing domain is the empty string. */
  datatype Cookie = Cookie(name: string, value: string, domain: string)

  const SessionName := "user_session"
  const GitHubDomain := "github.com"

  /** A GitHub session cookie: the right name, and a domain that contains `github.com` anywhere. */
  predicate IsGitHubSession(c: Cookie) {
    c.name == SessionName && Contains(c.domain, GitHubDomain)
  }

  /** Index of the first GitHub session cookie in the jar's order. */
  function FirstSession(jar: seq<Cookie>): (k: Option<nat>)
    ensures k.Some? ==> k.value < |jar| && IsGitHubSession(jar[k.value])
    ensures k.Some? ==> forall j :: 0 <= j < k.value ==> !IsGitHubSession(jar[j])
    ensures k.None? ==> forall j :: 0 <= j < |jar| ==> !IsGitHubSession(jar[j])
  {
    if |jar| == 0 then None
    else if IsGitHubSession(jar[0]) then Some(0)
    else
      match FirstSession(jar[1..])
      case None => None
      case Some(i) => Some(i + 1)
  }

  /** `get_session`: the value of the first GitHub session cookie, if there is one. */
  function GetSession(jar: seq<Cookie>): (v: Option<string>)
    ensures v.None? <==> forall j :: 0 <= j < |jar| ==> !IsGitHubSession(jar[j])
    ensures v.Some? ==> exists k :: 0 <= k < |jar| && IsGitHubSession(jar[k]) && jar[k].value == v.value
                                   && forall j :: 0 <= j < k ==> !IsGitHubSession(jar[j])
  {
    match FirstSession(jar)
    case None => None
    case Some(k) => Some(jar[k].value)
  }

  /** A session cookie on any domain that mentions `github.com` is taken, ahead of everything after it. */
  lemma SessionAhead(v: string, pre: string, post: string, rest: seq<Cookie>)
    ensures GetSession([Cookie(SessionName, v, pre + GitHubDomain + post)] + rest) == Some(v)
  {
    assert OccursAt(GitHubDomain, GitHubDomain, 0);
    ContainsInContext(pre, GitHubDomain, post, GitHubDomain);
    assert IsGitHubSession(([Cookie(SessionName, v, pre + GitHubDomain + post)] + rest)[0]);
  }

  /** Cookies of other names or other domains are passed over. */
  lemma {:induction false} OthersSkipped(others: seq<Cookie>, rest: seq<Cookie>)
    requires forall j :: 0 <= j < |others| ==> !IsGitHubSession(others[j])
    ensures GetSession(others + rest) == GetSession(rest)
  {
    if |others| > 0 {
      OthersSkipped(others[1..], rest);
      assert (others + rest)[1..] == others[1..] + rest;
      assert (others + rest)[0] == others[0];
      SkipFirst(others + rest);
    } else {
      assert others + rest == rest;
    }
  }

  /** A leading cookie that is not a GitHub session does not change the answer. */
  lemma SkipFirst(jar: seq<Cookie>)
    requires |jar| > 0 && !IsGitHubSession(jar[0])
    ensures GetSession(jar) == GetSession(jar[1..])
  {
    match FirstSession(jar[1..])
    case None =>
    case Some(i) => assert jar[i + 1] == jar[1..][i];
  }

  // ---------------------------------------------------------------------------
  // save_cookie
  // ---------------------------------------------------------------------------

  /** Where a new session value ends up. */
  datatype Rotation =
    | NothingToSave          // no cookie, or an empty value: nothing happens
    | Stored                 // written to the repository secret; save_cookie only tells the chat that it was
    | Disclosed(v: string)   // the store failed, so the value itself is sent to the chat
    | Lost                   // the store failed and no chat is configured: the value goes nowhere

  /**
   * `save_cookie(value)`: the secret store is tried first; its own chat
   * message carries the value only as a fallback.  (The masked log line still
   * reaches the chat later, in the log tail of the final notification.)
   */
  function SaveCookie(value: string, storeOk: bool, chatConfigured: bool): (r: Rotation)
    ensures r == NothingToSave <==> value == ""
    ensures r == Stored <==> value != "" && storeOk
    ensures r.Disclosed? <==> value != "" && !storeOk && chatConfigured
    ensures r.Disclosed? ==> r.v == value
  {
    if value == "" then NothingToSave
    else if storeOk then Stored
    else if chatConfigured then Disclosed(value)
    else Lost
  }

  /** Step 7 of the run: read the jar, then save whatever session value was found. */
  function Rotate(jar: seq<Cookie>, storeOk: bool, chatConfigured: bool): (r: Rotation)
    ensures r.Disclosed? ==> exists k :: 0 <= k < |jar| && IsGitHubSession(jar[k]) && jar[k].value == r.v
  {
    match GetSession(jar)
    case None => NothingToSave
    case Some(v) => SaveCookie(v, storeOk, chatConfigured)
  }

  /** save_cookie's own message carries the value in clear exactly when the store failed on a non-empty session value and a chat exists. */
  lemma DisclosedOnlyOnStoreFailure(jar: seq<Cookie>, storeOk: bool, chatConfigured: bool)
    ensures Rotate(jar, storeOk, chatConfigured).Disclosed? <==>
      GetSession(jar).Some? && GetSession(jar).value != "" && !storeOk && chatConfigured
  {
  }

  // ---------------------------------------------------------------------------
  // The masked log line
  // ---------------------------------------------------------------------------

  /** `value[:15]`. */
  function Head(v: string): string {
    if |v| <= 15 then v else v[..15]
  }

  /** `value[-8:]`, the whole value when it is shorter. */
  function Tail(v: string): string {
    if |v| <= 8 then v else v[|v| - 8..]
  }

  /** The log line's rendering of the value. */
  function Masked(v: string): string {
    Head(v) + "..." + Tail(v)
  }

  /**
   * The log shows every character of a value of at most 23 characters:
   * the shown head followed by the end of the shown tail rebuilds it.
   */
  lemma ShortValueShown(v: string)
    requires |v| <= 23
    ensures |v| - |Head(v)| <= |Tail(v)|
    ensures v == Head(v) + Tail(v)[|Tail(v)| - (|v| - |Head(v)|)..]
  {
    if |v| > 15 {
      assert Tail(v)[|Tail(v)| - (|v| - 15)..] == v[15..];
      assert v == v[..15] + v[15..];
    }
  }

  /** A longer value keeps its middle out of the log: head and tail are its first 15 and last 8 characters only. */
  lemma LongValueHidden(v: string)
    requires |v| > 23
    ensures Head(v) == v[..15] && Tail(v) == v[|v| - 8..]
    ensures |Head(v)| + |Tail(v)| < |v|
  {
  }
}

=== FILE: stages.dfy ===
/**
 * The GitHub side of the login: the waits for device verification and for
 * GitHub Mobile approval, the one-time-code form, and the routing between
 * them in `login_github` and in `run`.  Each wait is a loop over the URL the
 * page shows at each one-second tick; the page itself is an input.
 */
module Stages {
  import opened Wrappers
  import opened Strings
  import opened Urls
  import opened Region
  import opened Page

  // ---------------------------------------------------------------------------
  // URL markers
  // ---------------------------------------------------------------------------

  const VerifiedDeviceMarker := "verified-device"
  const DeviceVerificationMarker := "device-verification"
  /** GitHub's second-factor pages all live under this path. */
  const TwoFactorSessionPath := "github.com/sessions/two-factor/"
  const TwoFactorMarker := "two-factor"
  const MobileMarker := "two-factor/mobile"
  const GitHubLoginPath := "github.com/login"
  const GitHubSessionPath := "github.com/session"

  /** The page asks for a device to be verified. */
  predicate OnDeviceCheck(url: string) {
    Contains(url, VerifiedDeviceMarker) || Contains(url, DeviceVerificationMarker)
  }

  /** What one tick of a wait decides. */
  datatype Tick =
    | Pass    // the stage is over, successfully
    | Fail    // the stage is over, unsuccessfully
    | Reload  // keep waiting, after reloading the page
    | Wait    // keep waiting

  // ---------------------------------------------------------------------------
  // Device verification
  // ---------------------------------------------------------------------------

  /** `DEVICE_VERIFY_WAIT`: the device wait lasts this many ticks. */
  const DeviceVerifyWait := 60

  /** A device-verification page that is no longer one: moved on to the consent page, or to a page without either marker. */
  predicate DeviceCleared(url: string) {
    Contains(url, OAuthAuthorizePath) || !OnDeviceCheck(url)
  }

  /**
   * One tick of `wait_device`: the page is looked at on every fifth tick
   * only; a look either ends the wait or reloads the page.
   */
  function DeviceTick(i: nat, url: string): (t: Tick)
    ensures t != Fail
    ensures t == Pass <==> i % 5 == 0 && DeviceCleared(url)
    ensures t == Reload <==> i % 5 == 0 && !DeviceCleared(url)
  {
    if i % 5 != 0 then Wait
    else if Contains(url, OAuthAuthorizePath) then Pass
    else if !OnDeviceCheck(url) then Pass
    else Reload
  }

  /**
   * `wait_device` over the URLs of its 60 ticks: it passes at the first
   * fifth tick whose URL is cleared, reloading the page on every fifth tick
   * before; the URLs of the other ticks are never read.
   */
  method WaitDevice(urls: seq<string>) returns (passed: bool, at: nat, reloads: nat)
    requires |urls| == DeviceVerifyWait
    ensures passed <==> exists i :: 0 <= i < |urls| && i % 5 == 0 && DeviceCleared(urls[i])
    ensures passed ==> at < |urls| && at % 5 == 0 && DeviceCleared(urls[at])
    ensures passed ==> forall j :: 0 <= j < at && j % 5 == 0 ==> !DeviceCleared(urls[j])
    ensures reloads == if passed then at / 5 else DeviceVerifyWait / 5
  {
    var i := 0;
    reloads := 0;
    while i < |urls|
      invariant 0 <= i <= |urls|
      invariant forall j :: 0 <= j < i && j % 5 == 0 ==> !DeviceCleared(urls[j])
      invariant reloads == (i + 4) / 5
    {
      var t := DeviceTick(i, urls[i]);
      if t == Pass {
        return true, i, reloads;
      } else if t == Reload {
        reloads := reloads + 1;
      }
      i := i + 1;
    }
    return false, |urls|, reloads;
  }

  // ---------------------------------------------------------------------------
  // GitHub Mobile approval
  // ---------------------------------------------------------------------------

  /**
   * One tick of `wait_two_factor_mobile`: leaving the second-factor pages
   * is success, checked before the failure test for the login form; the
   * page is reloaded on every thirtieth tick but the first.
   */
  function MobileTick(i: nat, url: string): (t: Tick)
    ensures t == Pass <==> !Contains(url, TwoFactorSessionPath)
    ensures t == Fail <==> Contains(url, TwoFactorSessionPath) && Contains(url, GitHubLoginPath)
    ensures t == Reload ==> i % 30 == 0 && i != 0
  {
    if !Contains(url, TwoFactorSessionPath) then Pass
    else if Contains(url, GitHubLoginPath) then Fail
    else if i % 30 == 0 && i != 0 then Reload
    else Wait
  }

  /** Still on a second-factor page that is not the login form: the mobile wait goes on. */
  predicate MobilePending(url: string) {
    Contains(url, TwoFactorSessionPath) && !Contains(url, GitHubLoginPath)
  }

  /**
   * `wait_two_factor_mobile` over the URLs of its ticks (`TWO_FACTOR_WAIT`
   * of them): it stops at the first tick that is not pending, and passes
   * exactly when that tick has left the second-factor pages.
   */
  method WaitTwoFactorMobile(urls: seq<string>) returns (passed: bool, stop: nat, reloads: nat)
    ensures stop <= |urls|
    ensures forall j :: 0 <= j < stop ==> MobilePending(urls[j])
    ensures stop < |urls| ==> !MobilePending(urls[stop])
    ensures passed <==> stop < |urls| && !Contains(urls[stop], TwoFactorSessionPath)
    ensures reloads == if stop == 0 then 0 else (stop - 1) / 30
  {
    var i := 0;
    reloads := 0;
    while i < |urls|
      invariant 0 <= i <= |urls|
      invariant forall j :: 0 <= j < i ==> MobilePending(urls[j])
      invariant reloads == if i == 0 then 0 else (i - 1) / 30
    {
      var t := MobileTick(i, urls[i]);
      if t == Pass {
        return true, i, reloads;
      } else if t == Fail {
        return false, i, reloads;
      } else if t == Reload {
        reloads := reloads + 1;
      }
      i := i + 1;
    }
    return false, |urls|, reloads;
  }

  /**
   * The success test runs first, so GitHub's plain login form, which is no
   * second-factor page, counts as an approved login.
   */
  lemma LoginFormPassesMobileWait(i: nat)
    ensures MobileTick(i, "https://github.com/login") == Pass
  {
    NotContainsByChar("https://github.com/login", TwoFactorSessionPath, 24);
  }

  // ---------------------------------------------------------------------------
  // The one-time-code form
  // ---------------------------------------------------------------------------

  /** Where the code is typed, tried in this order. */
  const CodeFieldSelectors: seq<Selector> := [
    "input[autocomplete=\"one-time-code\"]",
    "input[name=\"app_otp\"]",
    "input[name=\"otp\"]",
    "input#app_totp",
    "input#otp",
    "input[inputmode=\"numeric\"]"
  ]

  /** The submit controls, tried in this order; without one, Enter is pressed. */
  const SubmitSelectors: seq<Selector> := [
    "button:has-text(\"Verify\")",
    "button[type=\"submit\"]",
    "input[type=\"submit\"]"
  ]

  datatype Submission = Clicked(sel: Selector) | EnterKey

  datatype CodeEntry =
    | NoCode                                                      // the operator sent no code in time
    | NoField                                                     // no code field is visible
    | Entered(field: Selector, submit: Submission, accepted: bool)  // the code was typed and submitted

  /**
   * `handle_2fa_code_input` once the code wait is over: type the code into
   * the first visible field, submit it, and judge by the URL afterwards.
   */
  function HandleCodeInput(code: Option<string>, visible: Visible, urlAfter: string): (r: CodeEntry)
    ensures r.NoCode? <==> code.None? || code.value == ""
    ensures r.NoField? <==> code.Some? && code.value != "" && forall s :: s in CodeFieldSelectors ==> s !in visible
    ensures r.Entered? ==> Click(CodeFieldSelectors, visible) == Some(r.field)
    ensures r.Entered? ==> (r.submit.EnterKey? <==> forall s :: s in SubmitSelectors ==> s !in visible)
    ensures r.Entered? && r.submit.Clicked? ==> Click(SubmitSelectors, visible) == Some(r.submit.sel)
    ensures r.Entered? ==> (r.accepted <==> !Contains(urlAfter, TwoFactorSessionPath))
  {
    if code.None? || code.value == "" then NoCode
    else
      match Click(CodeFieldSelectors, visible)
      case None => NoField
      case Some(field) =>
        var submit := match Click(SubmitSelectors, visible) case Some(s) => Clicked(s) case None => EnterKey;
        Entered(field, submit, !Contains(urlAfter, TwoFactorSessionPath))
  }

  /**
   * The code form and the mobile wait judge success by the same test: a
   * submitted code is accepted exactly when a mobile tick on the resulting
   * URL would pass.  It holds by definition: both read the same
   * `/sessions/two-factor` test of the URL.
   */
  lemma CodeAndMobileAgree(code: Option<string>, visible: Visible, urlAfter: string, i: nat)
    requires HandleCodeInput(code, visible, urlAfter).Entered?
    ensures HandleCodeInput(code, visible, urlAfter).accepted <==> MobileTick(i, urlAfter) == Pass
  {
  }

  // ---------------------------------------------------------------------------
  // Routing in login_github
  // ---------------------------------------------------------------------------

  datatype SecondFactor = NoSecondFactor | MobileApproval | OneTimeCode

  /** The second factor the page asks for: mobile approval when the mobile marker is present, otherwise a code. */
  function SecondFactorOf(url: string): (f: SecondFactor)
    ensures f.NoSecondFactor? <==> !Contains(url, TwoFactorMarker)
    ensures f.MobileApproval? ==> Contains(url, MobileMarker)
  {
    if !Contains(url, TwoFactorMarker) then NoSecondFactor
    else if Contains(url, MobileMarker) then MobileApproval
    else OneTimeCode
  }

  /** A mobile-approval URL always carries the general marker, so the mobile route is reachable. */
  lemma MobileIsSecondFactor(url: string)
    requires Contains(url, MobileMarker)
    ensures SecondFactorOf(url) == MobileApproval
  {
    var i :| 0 <= i <= |url| - |MobileMarker| && OccursAt(url, MobileMarker, i);
    assert url[i..i + |TwoFactorMarker|] == url[i..i + |MobileMarker|][..|TwoFactorMarker|];
    assert OccursAt(url, TwoFactorMarker, i);
  }

  /** What the GitHub pages showed during `login_github`, and how each wait it entered ended. */
  datatype GitHubRun = GitHubRun(
    formPresent: bool,     // both credential fields could be filled
    afterSubmit: string,   // the URL once the form was submitted
    deviceOk: bool,        // the outcome of the device wait, if entered
    afterDevice: string,   // the URL after the device stage
    mobileOk: bool,        // the outcome of the mobile wait, if entered
    codeOk: bool)          // the outcome of the code form, if entered

  datatype LoginOutcome = SignedIn | FillFailed | DeviceTimedOut | MobileFailed | CodeFailed

  /** `login_github`: fill and submit, then the device stage if asked for, then the second factor if asked for. */
  function LoginGithub(g: GitHubRun): (r: LoginOutcome)
    ensures r == FillFailed <==> !g.formPresent
    ensures r == DeviceTimedOut ==> OnDeviceCheck(g.afterSubmit) && !g.deviceOk
    ensures g.formPresent && OnDeviceCheck(g.afterSubmit) && !g.deviceOk ==> r == DeviceTimedOut
    ensures r == MobileFailed ==> SecondFactorOf(g.afterDevice) == MobileApproval && !g.mobileOk
    ensures r == CodeFailed ==> SecondFactorOf(g.afterDevice) == OneTimeCode && !g.codeOk
    ensures r == SignedIn <==>
      && g.formPresent
      && (OnDeviceCheck(g.afterSubmit) ==> g.deviceOk)
      && (SecondFactorOf(g.afterDevice) == MobileApproval ==> g.mobileOk)
      && (SecondFactorOf(g.afterDevice) == OneTimeCode ==> g.codeOk)
  {
    if !g.formPresent then FillFailed
    else if OnDeviceCheck(g.afterSubmit) && !g.deviceOk then DeviceTimedOut
    else
      match SecondFactorOf(g.afterDevice)
      case NoSecondFactor => SignedIn
      case MobileApproval => if g.mobileOk then SignedIn else MobileFailed
      case OneTimeCode => if g.codeOk then SignedIn else CodeFailed
  }

  // ---------------------------------------------------------------------------
  // Routing in run
  // ---------------------------------------------------------------------------

  /** The URL fragments whose appearance ends the wait after clicking GitHub on the entry page. */
  const JumpNeedles: seq<string> := [GitHubLoginPath, GitHubSessionPath, OAuthAuthorizePath, TenantSuffix]

  /**
   * `wait_for_url_contains_any` with the needles above, on one URL.  The
   * consent needle adds nothing: every consent URL already contains
   * `github.com/login`.
   */
  predicate Jumped(url: string): (b: bool)
    ensures b <==> Contains(url, GitHubLoginPath) || Contains(url, GitHubSessionPath) || Contains(url, TenantSuffix)
  {
    JumpNeedlesSpelled(url);
    ConsentHasLoginPath(url);
    exists k :: 0 <= k < |JumpNeedles| && Contains(url, JumpNeedles[k])
  }

  lemma JumpNeedlesSpelled(url: string)
    ensures (exists k :: 0 <= k < |JumpNeedles| && Contains(url, JumpNeedles[k])) <==>
      Contains(url, GitHubLoginPath) || Contains(url, GitHubSessionPath)
      || Contains(url, OAuthAuthorizePath) || Contains(url, TenantSuffix)
  {
    assert JumpNeedles[0] == GitHubLoginPath && JumpNeedles[1] == GitHubSessionPath;
    assert JumpNeedles[2] == OAuthAuthorizePath && JumpNeedles[3] == TenantSuffix;
  }

  /** The consent path begins with GitHub's login path. */
  lemma ConsentHasLoginPath(url: string)
    ensures Contains(url, OAuthAuthorizePath) ==> Contains(url, GitHubLoginPath)
  {
    if Contains(url, OAuthAuthorizePath) {
      var i :| 0 <= i <= |url| - |OAuthAuthorizePath| && OccursAt(url, OAuthAuthorizePath, i);
      var n := |GitHubLoginPath|;
      assert OAuthAuthorizePath[..n] == GitHubLoginPath;
      assert url[i..i + n] == url[i..i + |OAuthAuthorizePath|][..n];
      assert OccursAt(url, GitHubLoginPath, i);
    }
  }

  /**
   * The tenant suffix is one of the needles and the entry page is itself on
   * a tenant host, so the wait for leaving the entry page is satisfied by
   * the entry page itself.
   */
  lemma EntryPageCountsAsJump(forced: Option<string>)
    ensures Jumped(SigninUrl(forced))
  {
    var host := if forced.Some? && forced.value != "" then forced.value else "console";
    assert SigninUrl(forced) == Https + (host + TenantSuffix) + "/signin";
    Assoc(Https, host + TenantSuffix, "/signin");
    Assoc(Https, host, TenantSuffix);
    assert SigninUrl(forced) == (Https + host) + TenantSuffix + "/signin";
    assert OccursAt(TenantSuffix, TenantSuffix, 0);
    ContainsInContext(Https + host, TenantSuffix, "/signin", TenantSuffix);
    assert JumpNeedles[3] == TenantSuffix;
  }

  /**
   * Step 3 of `run` as written: `login_github` is entered on any URL with
   * `github.com/login` or `github.com/session` in it.
   */
  predicate EntersLoginAsWritten(url: string): (b: bool)
    ensures Contains(url, OAuthAuthorizePath) ==> b
  {
    ConsentHasLoginPath(url);
    Contains(url, GitHubLoginPath) || Contains(url, GitHubSessionPath)
  }

  /**
   * Step 3 of `run` as intended: the consent page, whose path also starts
   * with `github.com/login`, is left to the consent handler that follows.
   */
  predicate EntersLogin(url: string): (b: bool)
    ensures b ==> !Contains(url, OAuthAuthorizePath)
    ensures !Contains(url, OAuthAuthorizePath) ==> (b <==> EntersLoginAsWritten(url))
  {
    EntersLoginAsWritten(url) && !Contains(url, OAuthAuthorizePath)
  }

  /** GitHub's consent page. */
  const ConsentUrl := Https + OAuthAuthorizePath

  /** How step 3 of `run` ends: `login_github` failed, or the run moves on after the consent handler. */
  datatype AuthResult = LoginFailed(outcome: LoginOutcome) | Proceed(consent: ConsentStep)

  /**
   * Step 3 of `run` given the routing decision: when the login form is
   * entered and fails the run stops; otherwise the consent handler looks at
   * the page as it is now, which is the page after `login_github` when that
   * ran.  When it did not run, `url` stands for both the URL read by the
   * routing test and the one the consent handler reads again; nothing acts
   * on the page between the two reads.
   */
  function AuthStep(enter: bool, url: string, g: GitHubRun, urlAfterLogin: string, visible: Visible): (r: AuthResult)
    ensures r.LoginFailed? <==> enter && LoginGithub(g) != SignedIn
    ensures r.LoginFailed? ==> r.outcome == LoginGithub(g)
    ensures r.Proceed? && !enter ==> r.consent == Consent(url, visible)
    ensures r.Proceed? && enter ==> r.consent == Consent(urlAfterLogin, visible)
  {
    if enter then
      match LoginGithub(g)
      case SignedIn => Proceed(Consent(urlAfterLogin, visible))
      case failed => LoginFailed(failed)
    else Proceed(Consent(url, visible))
  }

  /** Step 3 as written. */
  function AuthenticateAsWritten(url: string, g: GitHubRun, urlAfterLogin: string, visible: Visible): AuthResult {
    AuthStep(EntersLoginAsWritten(url), url, g, urlAfterLogin, visible)
  }

  /** Step 3 with the consent page left to the consent handler. */
  function Authenticate(url: string, g: GitHubRun, urlAfterLogin: string, visible: Visible): AuthResult {
    AuthStep(EntersLogin(url), url, g, urlAfterLogin, visible)
  }

  /** The consent URL contains both the login path and the consent path. */
  lemma ConsentUrlPaths()
    ensures Contains(ConsentUrl, GitHubLoginPath)
    ensures Contains(ConsentUrl, OAuthAuthorizePath)
  {
    assert OAuthAuthorizePath[..|GitHubLoginPath|] == GitHubLoginPath;
    assert OccursAt(OAuthAuthorizePath, GitHubLoginPath, 0);
    assert ConsentUrl == Https + OAuthAuthorizePath + "";
    ContainsInContext(Https, OAuthAuthorizePath, "", GitHubLoginPath);
    assert ConsentUrl[|Https|..|Https| + |OAuthAuthorizePath|] == OAuthAuthorizePath;
    assert OccursAt(ConsentUrl, OAuthAuthorizePath, |Https|);
  }

  /**
   * As written, the consent page is routed to the login form; it has no
   * credential fields, so `login_github` fails and the run ends in failure
   * before the consent handler is reached.
   */
  lemma ConsentPageEntersLoginAsWritten(g: GitHubRun, urlAfterLogin: string, visible: Visible)
    requires !g.formPresent
    ensures EntersLoginAsWritten(ConsentUrl)
    ensures AuthenticateAsWritten(ConsentUrl, g, urlAfterLogin, visible) == LoginFailed(FillFailed)
  {
    ConsentUrlPaths();
  }

  /**
   * With the intended routing the consent page skips the login form and
   * reaches the consent handler, whatever the login form would have done;
   * on every other URL the two routings agree.
   */
  lemma ConsentPageReachesConsent(url: string, g: GitHubRun, urlAfterLogin: string, visible: Visible)
    ensures !EntersLogin(ConsentUrl)
    ensures Authenticate(ConsentUrl, g, urlAfterLogin, visible).Proceed?
    ensures !Authenticate(ConsentUrl, g, urlAfterLogin, visible).consent.NotOnConsent?
    ensures !Contains(url, OAuthAuthorizePath) ==>
      Authenticate(url, g, urlAfterLogin, visible) == AuthenticateAsWritten(url, g, urlAfterLogin, visible)
  {
    ConsentUrlPaths();
  }
}

=== FILE: strings.dfy ===
/**
 * The handful of Python `str` operations the login script relies on, as
 * functions over `seq<char>`.  Letter case and digits are modelled for ASCII
 * only; whitespace is Python's full `str.isspace` set.
 */
module Strings {

  // ---------------------------------------------------------------------------
  // Prefixes, suffixes and containment
  // ---------------------------------------------------------------------------

  /** Python's `s.startswith(p)`. */
  predicate StartsWith(s: string, p: string) {
    |p| <= |s| && s[..|p|] == p
  }

  /** Python's `s.endswith(p)`. */
  predicate EndsWith(s: string, p: string) {
    |p| <= |s| && s[|s| - |p|..] == p
  }

  /** `sub` occurs in `s` starting at index `i`. */
  predicate OccursAt(s: string, sub: string, i: int) {
    0 <= i && i + |sub| <= |s| && s[i..i + |sub|] == sub
  }

  /** Python's `sub in s`. */
  predicate Contains(s: string, sub: string) {
    exists i :: 0 <= i <= |s| - |sub| && OccursAt(s, sub, i)
  }

  /** A string in which no two adjacent characters spell the first two of `sub` cannot contain `sub`. */
  lemma NotContainsByPair(s: string, sub: string)
    requires |sub| >= 2
    requires forall i :: 0 <= i < |s| - 1 ==> !(s[i] == sub[0] && s[i + 1] == sub[1])
    ensures !Contains(s, sub)
  {
    forall i | 0 <= i <= |s| - |sub|
      ensures !OccursAt(s, sub, i)
    {
      assert s[i..i + |sub|][0] == s[i] && s[i..i + |sub|][1] == s[i + 1];
    }
  }

  /** A string lacking one of the characters of `sub` cannot contain `sub`. */
  lemma NotContainsByChar(s: string, sub: string, k: nat)
    requires k < |sub| && sub[k] !in s
    ensures !Contains(s, sub)
  {
    forall i | 0 <= i <= |s| - |sub|
      ensures !OccursAt(s, sub, i)
    {
      assert s[i..i + |sub|][k] == s[i + k];
    }
  }

  /** Containment survives putting text on either side. */
  lemma ContainsInContext(a: string, s: string, b: string, sub: string)
    requires Contains(s, sub)
    ensures Contains(a + s + b, sub)
  {
    var i :| 0 <= i <= |s| - |sub| && OccursAt(s, sub, i);
    var t := a + s + b;
    assert t[|a| + i..|a| + i + |sub|] == s[i..i + |sub|];
    assert 0 <= |a| + i <= |t| - |sub| && OccursAt(t, sub, |a| + i);
    assert Contains(t, sub);
  }

  // ---------------------------------------------------------------------------
  // Character classes
  // ---------------------------------------------------------------------------

  /** Python's `str.isspace`, which is also what `\s` and `strip()` use. */
  predicate IsSpace(c: char) {
    || ('\t' <= c <= '\r')
    || ('\U{1C}' <= c <= '\U{1F}')
    || c == ' ' || c == '\U{85}' || c == '\U{A0}' || c == '\U{1680}'
    || ('\U{2000}' <= c <= '\U{200A}')
    || c == '\U{2028}' || c == '\U{2029}' || c == '\U{202F}' || c == '\U{205F}' || c == '\U{3000}'
  }

  predicate IsDigit(c: char) { '0' <= c <= '9' }

  predicate IsLowerLetter(c: char) { 'a' <= c <= 'z' }

  predicate IsUpperLetter(c: char) { 'A' <= c <= 'Z' }

  /** The classes of character the script scans runs of. */
  datatype CharClass =
    | LowerLetter   // regex `[a-z]`
    | Digit         // regex `\d`, ASCII only
    | Space         // regex `\s`
    | NotColon      // everything but `:` (locating the scheme separator)
    | SchemeChar    // letters, digits, `+`, `-`, `.`
    | AuthorityChar // everything that does not end a URL's network location

  predicate InClass(c: char, k: CharClass) {
    match k
    case LowerLetter => IsLowerLetter(c)
    case Digit => IsDigit(c)
    case Space => IsSpace(c)
    case NotColon => c != ':'
    case SchemeChar => IsLowerLetter(c) || IsUpperLetter(c) || IsDigit(c) || c == '+' || c == '-' || c == '.'
    case AuthorityChar => c != '/' && c != '?' && c != '#'
  }

  /** Every character of `s` is in class `k`. */
  predicate AllIn(s: string, k: CharClass) {
    forall i :: 0 <= i < |s| ==> InClass(s[i], k)
  }

  /** Length of the longest prefix of `s` whose characters are all in class `k`. */
  function Span(s: string, k: CharClass): (n: nat)
    ensures n <= |s|
    ensures AllIn(s[..n], k)
    ensures n < |s| ==> !InClass(s[n], k)
  {
    if |s| > 0 && InClass(s[0], k) then
      var m := Span(s[1..], k);
      assert s[..m + 1] == [s[0]] + s[1..][..m];
      m + 1
    else
      0
  }

  /** The run of class-`k` characters at the head of `p + rest` is exactly `p` when `rest` does not continue it. */
  lemma SpanOfConcat(p: string, rest: string, k: CharClass)
    requires AllIn(p, k)
    requires |rest| > 0 ==> !InClass(rest[0], k)
    ensures Span(p + rest, k) == |p|
  {
    var s := p + rest;
    var n := Span(s, k);
    assert forall j :: 0 <= j < |p| ==> InClass(s[j], k);
    assert |rest| > 0 ==> !InClass(s[|p|], k);
    assert forall j :: 0 <= j < n ==> s[..n][j] == s[j];
  }

  /** A non-empty class-`k` run closed by a separator outside the class: the span stops right at the separator. */
  lemma SpanUpTo(p: string, sep: char, rest: string, k: CharClass)
    requires AllIn(p, k) && !InClass(sep, k)
    ensures Span(p + [sep] + rest, k) == |p|
    ensures (p + [sep] + rest)[|p|] == sep
    ensures (p + [sep] + rest)[|p| + 1..] == rest
  {
    assert p + [sep] + rest == p + ([sep] + rest);
    SpanOfConcat(p, [sep] + rest, k);
  }

  /** Length of the longest suffix of `s` whose characters are all in class `k`. */
  function TailSpan(s: string, k: CharClass): (n: nat)
    ensures n <= |s|
    ensures AllIn(s[|s| - n..], k)
    ensures n < |s| ==> !InClass(s[|s| - n - 1], k)
  {
    if |s| > 0 && InClass(s[|s| - 1], k) then
      var t := s[..|s| - 1];
      var m := TailSpan(t, k);
      TailSpanStep(s, t, m, k);
      m + 1
    else
      0
  }

  /** Extending a class-`k` tail run of `t` by one more class-`k` character at the end. */
  lemma TailSpanStep(s: string, t: string, m: nat, k: CharClass)
    requires |s| > 0 && t == s[..|s| - 1] && InClass(s[|s| - 1], k)
    requires m <= |t| && AllIn(t[|t| - m..], k)
    requires m < |t| ==> !InClass(t[|t| - m - 1], k)
    ensures AllIn(s[|s| - (m + 1)..], k)
    ensures m + 1 < |s| ==> !InClass(s[|s| - (m + 1) - 1], k)
  {
    var u := s[|s| - (m + 1)..];
    forall j | 0 <= j < m + 1
      ensures InClass(u[j], k)
    {
      if j < m {
        assert u[j] == t[|t| - m..][j];
      } else {
        assert u[j] == s[|s| - 1];
      }
    }
    if m + 1 < |s| {
      assert s[|s| - (m + 1) - 1] == t[|t| - m - 1];
    }
  }

  // ---------------------------------------------------------------------------
  // Case folding (ASCII)
  // ---------------------------------------------------------------------------

  function Lower(c: char): (d: char)
    ensures !IsUpperLetter(d)
    ensures !IsUpperLetter(c) ==> d == c
  {
    if IsUpperLetter(c) then (c as int - 'A' as int + 'a' as int) as char else c
  }

  /** Python's `s.lower()` on ASCII letters. */
  function ToLower(s: string): (r: string)
    ensures |r| == |s|
    ensures forall i :: 0 <= i < |s| ==> r[i] == Lower(s[i])
  {
    seq(|s|, i requires 0 <= i < |s| => Lower(s[i]))
  }

  /** `s` has no upper-case letter, so lower-casing leaves it alone. */
  predicate IsFolded(s: string) {
    forall i :: 0 <= i < |s| ==> !IsUpperLetter(s[i])
  }

  lemma ToLowerOfFolded(s: string)
    requires IsFolded(s)
    ensures ToLower(s) == s
  {
  }

  /** `sub` matches `s` at `i` when both are compared letter by letter ignoring case. */
  predicate FoldedAt(s: string, sub: string, i: int) {
    0 <= i && i + |sub| <= |s| && forall k :: 0 <= k < |sub| ==> Lower(s[i + k]) == Lower(sub[k])
  }

  /** Case-insensitive containment, defined without lower-casing either string as a whole. */
  predicate ContainsFolded(s: string, sub: string) {
    exists i :: 0 <= i <= |s| - |sub| && FoldedAt(s, sub, i)
  }

  /** Searching for a lower-case needle in the lower-cased text is case-insensitive search. */
  lemma ContainsLowerIsFolded(s: string, sub: string)
    requires IsFolded(sub)
    ensures Contains(ToLower(s), sub) <==> ContainsFolded(s, sub)
  {
    var u := ToLower(s);
    if Contains(u, sub) {
      var i :| 0 <= i <= |u| - |sub| && OccursAt(u, sub, i);
      forall k | 0 <= k < |sub|
        ensures Lower(s[i + k]) == Lower(sub[k])
      {
        assert u[i..i + |sub|][k] == u[i + k];
      }
      assert FoldedAt(s, sub, i);
    }
    if ContainsFolded(s, sub) {
      var i :| 0 <= i <= |s| - |sub| && FoldedAt(s, sub, i);
      assert u[i..i + |sub|] == sub;
      assert OccursAt(u, sub, i);
    }
  }

  // ---------------------------------------------------------------------------
  // strip()
  // ---------------------------------------------------------------------------

  /** `s` is `r` with whitespace-only padding of `i` characters before it and the rest after it. */
  predicate PaddedAt(s: string, r: string, i: int) {
    0 <= i && i + |r| <= |s| && AllIn(s[..i], Space) && s[i..i + |r|] == r && AllIn(s[i + |r|..], Space)
  }

  /** Neither end of `r` is whitespace. */
  predicate Trimmed(r: string) {
    |r| == 0 || (!IsSpace(r[0]) && !IsSpace(r[|r| - 1]))
  }

  /** Python's `s.strip()`: the text between the leading and the trailing whitespace. */
  function Strip(s: string): (r: string)
    ensures Trimmed(r)
    ensures exists i :: 0 <= i <= |s| - |r| && PaddedAt(s, r, i)
  {
    var lo := Span(s, Space);
    var t := s[lo..];
    var r := t[..|t| - TailSpan(t, Space)];
    StripCore(s, lo, r);
    r
  }

  lemma StripCore(s: string, lo: nat, r: string)
    requires lo == Span(s, Space)
    requires r == s[lo..][..|s[lo..]| - TailSpan(s[lo..], Space)]
    ensures Trimmed(r) && PaddedAt(s, r, lo)
  {
    var t := s[lo..];
    var n := TailSpan(t, Space);
    assert s[lo..lo + |r|] == r;
    assert s[lo + |r|..] == t[|t| - n..];
    if |r| > 0 {
      assert r[0] == s[lo];
      assert r[|r| - 1] == t[|t| - n - 1];
    }
  }

  /** Every character outside the core of a padding is whitespace. */
  lemma PadIsSpace(s: string, r: string, i: int, k: int)
    requires PaddedAt(s, r, i)
    requires 0 <= k < |s| && (k < i || k >= i + |r|)
    ensures IsSpace(s[k])
  {
    if k < i {
      assert s[..i][k] == s[k];
    } else {
      assert s[i + |r|..][k - (i + |r|)] == s[k];
    }
  }

  /** The two properties in Strip's contract pin its result down: any trimmed core of a padding is it. */
  lemma StripUnique(s: string, r: string, i: int)
    requires Trimmed(r) && PaddedAt(s, r, i)
    ensures Strip(s) == r
  {
    var q := Strip(s);
    var j :| 0 <= j <= |s| - |q| && PaddedAt(s, q, j);
    PaddingUnique(s, r, i, q, j);
  }

  lemma PaddingUnique(s: string, r: string, i: int, q: string, j: int)
    requires Trimmed(r) && PaddedAt(s, r, i)
    requires Trimmed(q) && PaddedAt(s, q, j)
    ensures r == q
  {
    if |r| == 0 && |q| > 0 {
      assert s[j..j + |q|][0] == s[j];
      PadIsSpace(s, r, i, j);
    } else if |q| == 0 && |r| > 0 {
      assert s[i..i + |r|][0] == s[i];
      PadIsSpace(s, q, j, i);
    } else if |r| > 0 && |q| > 0 {
      assert s[i..i + |r|][0] == s[i];
      assert s[j..j + |q|][0] == s[j];
      if j < i { PadIsSpace(s, r, i, j); }
      if i < j { PadIsSpace(s, q, j, i); }
      assert s[i..i + |r|][|r| - 1] == s[i + |r| - 1];
      assert s[j..j + |q|][|q| - 1] == s[j + |q| - 1];
      if |r| < |q| { PadIsSpace(s, r, i, j + |q| - 1); }
      if |q| < |r| { PadIsSpace(s, q, j, i + |r| - 1); }
    }
  }

  /** Whitespace around a trimmed text is exactly what strip removes. */
  lemma StripPadded(pre: string, core: string, post: string)
    requires AllIn(pre, Space) && AllIn(post, Space) && Trimmed(core)
    ensures Strip(pre + core + post) == core
  {
    var s := pre + core + post;
    assert s[..|pre|] == pre;
    assert s[|pre|..|pre| + |core|] == core;
    assert s[|pre| + |core|..] == post;
    StripUnique(s, core, |pre|);
  }

  /** Stripping twice is stripping once. */
  lemma StripIdempotent(s: string)
    ensures Strip(Strip(s)) == Strip(s)
  {
    var r := Strip(s);
    assert r[..0] == [] && r[0..|r|] == r && r[|r|..] == [];
    assert PaddedAt(r, r, 0);
    StripUnique(r, r, 0);
  }

  // ---------------------------------------------------------------------------
  // split(sep) and its inverse
  // ---------------------------------------------------------------------------

  /** Python's `s.split(sep)` for a one-character separator: always at least one piece. */
  function Split(s: string, sep: char): (parts: seq<string>)
    ensures |parts| >= 1
    ensures forall p :: p in parts ==> sep !in p
  {
    if |s| == 0 then [""]
    else
      var rest := Split(s[1..], sep);
      if s[0] == sep then [""] + rest
      else [[s[0]] + rest[0]] + rest[1..]
  }

  /** Python's `sep.join(parts)`. */
  function Join(parts: seq<string>, sep: char): string
    requires |parts| >= 1
  {
    if |parts| == 1 then parts[0] else parts[0] + [sep] + Join(parts[1..], sep)
  }

  /** Joining the pieces of a split restores the original text. */
  lemma {:induction false} JoinSplit(s: string, sep: char)
    ensures Join(Split(s, sep), sep) == s
  {
    if |s| > 0 {
      var rest := Split(s[1..], sep);
      JoinSplit(s[1..], sep);
      if s[0] == sep {
        assert Split(s, sep)[1..] == rest;
      } else {
        var parts := Split(s, sep);
        if |rest| == 1 {
          assert parts == [[s[0]] + rest[0]];
        } else {
          assert parts[1..] == rest[1..];
          assert Join(rest, sep) == rest[0] + [sep] + Join(rest[1..], sep);
        }
      }
    }
  }

  /** Splitting a join of separator-free pieces gives the pieces back. */
  lemma {:induction false} SplitJoin(parts: seq<string>, sep: char)
    requires |parts| >= 1
    requires forall i :: 0 <= i < |parts| ==> sep !in parts[i]
    ensures Split(Join(parts, sep), sep) == parts
  {
    if |parts| == 1 {
      SplitFree(parts[0], sep);
    } else {
      SplitJoin(parts[1..], sep);
      SplitPrefix(parts[0], Join(parts[1..], sep), sep);
    }
  }

  /** A separator-free string splits into itself. */
  lemma {:induction false} SplitFree(s: string, sep: char)
    requires sep !in s
    ensures Split(s, sep) == [s]
  {
    if |s| > 0 {
      SplitFree(s[1..], sep);
      assert [s[0]] + s[1..] == s;
    }
  }

  /** Splitting `a + sep + b` with `a` separator-free puts `a` first and then the pieces of `b`. */
  lemma {:induction false} SplitPrefix(a: string, b: string, sep: char)
    requires sep !in a
    ensures Split(a + [sep] + b, sep) == [a] + Split(b, sep)
  {
    if |a| == 0 {
      assert a + [sep] + b == [sep] + b;
      assert ([sep] + b)[1..] == b;
    } else {
      SplitPrefix(a[1..], b, sep);
      assert (a + [sep] + b)[1..] == a[1..] + [sep] + b;
      assert [a[0]] + a[1..] == a;
    }
  }

  /** A separator-free text in front of the input lengthens the first piece and nothing else. */
  lemma {:induction false} SplitGlueFront(x: string, s: string, sep: char)
    requires sep !in x
    ensures Split(x + s, sep) == [x + Split(s, sep)[0]] + Split(s, sep)[1..]
  {
    var q := Split(s, sep);
    if |x| > 0 {
      SplitGlueFront(x[1..], s, sep);
      assert (x + s)[1..] == x[1..] + s;
      assert (x + s)[0] == x[0] && x[0] != sep;
      GlueFirst(x, q, Split(x[1..] + s, sep));
    } else {
      assert x + s == s && x + q[0] == q[0];
      assert [q[0]] + q[1..] == q;
    }
  }

  /** The bookkeeping step of the lemma above: putting back the first character of `x`. */
  lemma GlueFirst(x: string, q: seq<string>, r: seq<string>)
    requires |x| > 0 && |q| >= 1
    requires r == [x[1..] + q[0]] + q[1..]
    ensures [[x[0]] + r[0]] + r[1..] == [x + q[0]] + q[1..]
  {
    assert r[0] == x[1..] + q[0] && r[1..] == q[1..];
    assert [x[0]] + (x[1..] + q[0]) == x + q[0];
  }

  /** A separator-free text after the input lengthens the last piece and nothing else. */
  lemma {:induction false} SplitGlueBack(s: string, y: string, sep: char)
    requires sep !in y
    ensures |Split(s + y, sep)| == |Split(s, sep)|
    ensures Split(s + y, sep) == Split(s, sep)[..|Split(s, sep)| - 1] + [Split(s, sep)[|Split(s, sep)| - 1] + y]
  {
    if |s| == 0 {
      SplitFree(y, sep);
      assert s + y == y;
    } else {
      var r := Split(s[1..], sep);
      SplitGlueBack(s[1..], y, sep);
      assert (s + y)[1..] == s[1..] + y;
      assert (s + y)[0] == s[0];
      var r' := Split(s[1..] + y, sep);
      if s[0] == sep {
        GlueLast([], r, r', y);
      } else {
        GlueLast([s[0]], r, r', y);
      }
    }
  }

  /**
   * The bookkeeping step of the lemma above: gluing `y` to the last piece of
   * the rest commutes with adding the first character (`c`, a non-separator)
   * or an empty first piece (`c` empty, for a separator).
   */
  lemma GlueLast(c: string, r: seq<string>, r': seq<string>, y: string)
    requires |r| >= 1 && r' == r[..|r| - 1] + [r[|r| - 1] + y]
    ensures c == [] ==> [c] + r' == ([c] + r)[..|r|] + [([c] + r)[|r|] + y]
    ensures c != [] ==> [c + r'[0]] + r'[1..] == ([c + r[0]] + r[1..])[..|r| - 1] + [([c + r[0]] + r[1..])[|r| - 1] + y]
  {
    var n := |r|;
    if n == 1 {
      assert r' == [r[0] + y];
      assert c + (r[0] + y) == (c + r[0]) + y;
    } else {
      assert r'[0] == r[0] && r'[1..] == r[1..n - 1] + [r[n - 1] + y];
    }
  }

  /** Whitespace in front of a text does not change what strip returns. */
  lemma StripPadFront(pre: string, s: string)
    requires AllIn(pre, Space)
    ensures Strip(pre + s) == Strip(s)
  {
    var r := Strip(s);
    var i :| 0 <= i <= |s| - |r| && PaddedAt(s, r, i);
    PaddedFront(pre, s, r, i);
    StripUnique(pre + s, r, |pre| + i);
  }

  /** Whitespace after a text does not change what strip returns. */
  lemma StripPadBack(s: string, post: string)
    requires AllIn(post, Space)
    ensures Strip(s + post) == Strip(s)
  {
    var r := Strip(s);
    var i :| 0 <= i <= |s| - |r| && PaddedAt(s, r, i);
    PaddedBack(s, post, r, i);
    StripUnique(s + post, r, i);
  }

  lemma PaddedFront(pre: string, s: string, r: string, i: int)
    requires AllIn(pre, Space) && PaddedAt(s, r, i)
    ensures PaddedAt(pre + s, r, |pre| + i)
  {
    var t := pre + s;
    var j := |pre| + i;
    assert t[..j] == pre + s[..i];
    assert t[j..j + |r|] == s[i..i + |r|];
    assert t[j + |r|..] == s[i + |r|..];
  }

  lemma PaddedBack(s: string, post: string, r: string, i: int)
    requires AllIn(post, Space) && PaddedAt(s, r, i)
    ensures PaddedAt(s + post, r, i)
  {
    var t := s + post;
    assert t[..i] == s[..i];
    assert t[i..i + |r|] == s[i..i + |r|];
    assert t[i + |r|..] == s[i + |r|..] + post;
  }

  /** Whitespace holds no `c` that is not itself whitespace. */
  lemma SpaceLacks(w: string, c: char)
    requires AllIn(w, Space) && !IsSpace(c)
    ensures c !in w
  {
  }

  // ---------------------------------------------------------------------------
  // replace(pat, "")
  // ---------------------------------------------------------------------------

  /** Python's `s.replace(pat, "")`: every occurrence found scanning left to right is deleted. */
  function RemoveAll(s: string, pat: string): (r: string)
    requires |pat| > 0
    ensures |r| <= |s|
    decreases |s|
  {
    if |s| < |pat| then s
    else if s[..|pat|] == pat then RemoveAll(s[|pat|..], pat)
    else [s[0]] + RemoveAll(s[1..], pat)
  }

  /** A leading copy of the pattern is deleted. */
  lemma RemoveAllLeading(pat: string, s: string)
    requires |pat| > 0
    ensures RemoveAll(pat + s, pat) == RemoveAll(s, pat)
  {
    assert (pat + s)[..|pat|] == pat && (pat + s)[|pat|..] == s;
  }

  /** A leading character that cannot start the pattern is kept. */
  lemma RemoveAllKeeps(c: char, s: string, pat: string)
    requires |pat| > 0 && c != pat[0]
    ensures RemoveAll([c] + s, pat) == [c] + RemoveAll(s, pat)
  {
    assert ([c] + s)[1..] == s;
    if |pat| <= |s| + 1 {
      assert ([c] + s)[..|pat|][0] == c;
    }
  }

  /** `pat` occurs in `s` nowhere but as its final suffix (if there). */
  predicate OnlyAtEnd(s: string, pat: string) {
    forall i :: 0 <= i < |s| - |pat| ==> !OccursAt(s, pat, i)
  }

  /** With `pat` occurring only as the final suffix of `r + pat`, deleting it leaves `r`. */
  lemma {:induction false} RemoveAllLoneSuffix(r: string, pat: string)
    requires |pat| > 0
    requires OnlyAtEnd(r + pat, pat)
    ensures RemoveAll(r + pat, pat) == r
  {
    var s := r + pat;
    if |r| == 0 {
      assert s[..|pat|] == pat;
      assert s[|pat|..] == [];
    } else {
      assert !OccursAt(s, pat, 0);
      var t := r[1..] + pat;
      assert s[1..] == t;
      forall i | 0 <= i < |t| - |pat|
        ensures !OccursAt(t, pat, i)
      {
        SliceOfTail(s, i, |pat|);
        assert !OccursAt(s, pat, i + 1);
      }
      RemoveAllLoneSuffix(r[1..], pat);
      assert [r[0]] + r[1..] == r;
    }
  }

  lemma SliceOfTail(s: string, i: nat, n: nat)
    requires 0 < |s| && i + 1 + n <= |s|
    ensures s[1..][i..i + n] == s[i + 1..i + 1 + n]
  {
    assert |s[1..][i..i + n]| == n == |s[i + 1..i + 1 + n]|;
  }
}

=== FILE: telegram.dfy ===
/**
 * The operator-code channel: flushing the backlog of a Telegram bot's
 * update feed, then reading batches of updates until an authorised chat
 * sends `/code` followed by 6 to 8 digits.  Requests are inputs (their
 * replies); a model of the feed itself is given at the end to state what
 * the cursor achieves.
 */
module Telegram {
  import opened Wrappers
  import opened Strings

  /**
   * One update of a getUpdates reply: its id, the chat id as `str` renders
   * it (`"None"` when the update carries no message or chat), and the
   * message text (`""` when absent).
   */
  datatype Update = Update(updateId: int, chatId: string, text: string)

  /** A getUpdates reply: its decoded `ok` flag and `result` list, or a request or decoding failure. */
  datatype Reply = Reply(ok: bool, result: seq<Update>) | Broken

  /** Update ids strictly increase along the sequence, as the feed delivers them. */
  predicate Increasing(us: seq<Update>) {
    forall i, j :: 0 <= i < j < |us| ==> us[i].updateId < us[j].updateId
  }

  // ---------------------------------------------------------------------------
  // The command grammar
  // ---------------------------------------------------------------------------

  const CommandWord := "/code"

  /**
   * The regex `^/code\s+(\d{6,8})$` matched against already-stripped text:
   * the digit group, or nothing.  `\s+` cannot swallow digits, so a greedy
   * scan of the whitespace run decides the match.
   */
  function MatchCode(text: string): Option<string> {
    if !StartsWith(text, CommandWord) then None
    else
      var rest := text[|CommandWord|..];
      var n := Span(rest, Space);
      var digits := rest[n..];
      if 0 < n && 6 <= |digits| <= 8 && AllIn(digits, Digit) then Some(digits) else None
  }

  /**
   * The grammar stated declaratively: the word `/code`, a non-empty run of
   * whitespace, then the code, which is 6 to 8 digits and ends the text.
   */
  predicate CodeCommand(text: string, code: string) {
    && 6 <= |code| <= 8 && AllIn(code, Digit)
    && |CommandWord| + |code| < |text|
    && StartsWith(text, CommandWord) && EndsWith(text, code)
    && AllIn(text[|CommandWord|..|text| - |code|], Space)
  }

  /** The matcher and the grammar agree in both directions. */
  lemma MatchCodeIsGrammar(text: string, code: string)
    ensures MatchCode(text) == Some(code) <==> CodeCommand(text, code)
  {
    if MatchCode(text) == Some(code) {
      var rest := text[|CommandWord|..];
      var n := Span(rest, Space);
      assert rest[..n] == text[|CommandWord|..|text| - |code|];
      assert text[|text| - |code|..] == rest[n..];
    }
    if CodeCommand(text, code) {
      var rest := text[|CommandWord|..];
      var ws := text[|CommandWord|..|text| - |code|];
      assert rest == ws + code;
      assert !IsSpace(code[0]);
      SpanOfConcat(ws, code, Space);
      assert rest[|ws|..] == code;
    }
  }

  /** A code has one meaning: two readings of the same text agree. */
  lemma CodeCommandUnique(text: string, c1: string, c2: string)
    requires CodeCommand(text, c1) && CodeCommand(text, c2)
    ensures c1 == c2
  {
    MatchCodeIsGrammar(text, c1);
    MatchCodeIsGrammar(text, c2);
  }

  /** The code a message text carries: the grammar applied to the stripped text. */
  function CodeOf(text: string): Option<string> {
    MatchCode(Strip(text))
  }

  /**
   * What one update yields to the wait for chat `chatId`: nothing when it
   * comes from another chat, otherwise the code its text carries, if any.
   */
  function Verdict(u: Update, chatId: string): Option<string> {
    if u.chatId == chatId then CodeOf(u.text) else None
  }

  /** The verdict of chat `chatId`, as a value the wait is parameterised by. */
  function VerdictOf(chatId: string): Update -> Option<string> {
    u => Verdict(u, chatId)
  }

  /**
   * The verdict read declaratively: an update yields `code` exactly when it
   * comes from the configured chat and its stripped text is a `/code`
   * command for it.
   */
  lemma VerdictIsChatAndGrammar(chatId: string, u: Update, code: string)
    ensures VerdictOf(chatId)(u) == Some(code) <==> u.chatId == chatId && CodeCommand(Strip(u.text), code)
  {
    MatchCodeIsGrammar(Strip(u.text), code);
  }

  /** Surrounding whitespace is ignored: `  /code 482913 ` carries `482913`. */
  lemma StrippedCommand(pre: string, code: string, post: string, ws: string)
    requires AllIn(pre, Space) && AllIn(post, Space)
    requires ws != [] && AllIn(ws, Space)
    requires 6 <= |code| <= 8 && AllIn(code, Digit)
    ensures CodeOf(pre + (CommandWord + ws + code) + post) == Some(code)
  {
    var core := CommandWord + ws + code;
    assert core[0] == CommandWord[0];
    assert core[|core| - 1] == code[|code| - 1];
    StripPadded(pre, core, post);
    CommandMatches(ws, code);
  }

  /** The word, a whitespace run and 6 to 8 digits match, with the digits as the code. */
  lemma CommandMatches(ws: string, code: string)
    requires ws != [] && AllIn(ws, Space)
    requires 6 <= |code| <= 8 && AllIn(code, Digit)
    ensures MatchCode(CommandWord + ws + code) == Some(code)
  {
    var text := CommandWord + ws + code;
    var rest := text[|CommandWord|..];
    assert rest == ws + code;
    assert !IsSpace(code[0]);
    SpanOfConcat(ws, code, Space);
    assert rest[|ws|..] == code;
  }

  /**
   * A character other than a digit after the whitespace run rejects the
   * text, wherever it sits among the digits.
   */
  lemma NonDigitRejected(ws: string, code: string, k: nat)
    requires ws != [] && AllIn(ws, Space)
    requires k < |code| && !IsSpace(code[0]) && !IsDigit(code[k])
    ensures MatchCode(CommandWord + ws + code).None?
  {
    var text := CommandWord + ws + code;
    var rest := text[|CommandWord|..];
    assert rest == ws + code;
    SpanOfConcat(ws, code, Space);
    assert rest[|ws|..] == code;
  }

  /** `/code 482913` carries `482913`; `/code 12AB34` carries nothing. */
  lemma ScenarioCodes()
    ensures MatchCode(CommandWord + " " + "482913") == Some("482913")
    ensures MatchCode(CommandWord + " " + "12AB34").None?
  {
    CommandMatches(" ", "482913");
    NonDigitRejected(" ", "12AB34", 2);
  }

  // ---------------------------------------------------------------------------
  // Flushing the backlog
  // ---------------------------------------------------------------------------

  /**
   * `flush_updates`: one past the last update of an ok,
   * non-empty reply; 0 in every other case (not configured, not ok, empty,
   * or a failed request).
   */
  function FlushOffset(configured: bool, reply: Reply): (offset: int)
    ensures configured && reply.Reply? && reply.ok && Increasing(reply.result) ==>
      forall i :: 0 <= i < |reply.result| ==> reply.result[i].updateId < offset
    ensures configured && reply.Reply? && reply.ok && |reply.result| > 0 ==>
      offset - 1 == reply.result[|reply.result| - 1].updateId
    ensures (!configured || reply.Broken? || !reply.ok || reply.result == []) ==> offset == 0
  {
    if configured && reply.Reply? && reply.ok && |reply.result| > 0 then
      reply.result[|reply.result| - 1].updateId + 1
    else
      0
  }

  // ---------------------------------------------------------------------------
  // One batch and the whole wait
  // ---------------------------------------------------------------------------
  // The loops take the per-update verdict as a value: the script's is
  // `VerdictOf(chatId)`.

  /** Index of the first update the verdict gives a code for. */
  function FirstYielding(us: seq<Update>, verdict: Update -> Option<string>): (k: Option<nat>)
    ensures k.Some? ==> k.value < |us| && verdict(us[k.value]).Some?
    ensures k.Some? ==> forall j :: 0 <= j < k.value ==> verdict(us[j]).None?
    ensures k.None? ==> NoneYield(us, verdict)
  {
    if |us| == 0 then None
    else if verdict(us[0]).Some? then Some(0)
    else
      match FirstYielding(us[1..], verdict)
      case None => None
      case Some(i) => Some(i + 1)
  }

  /** No update of `us` yields a code. */
  predicate NoneYield(us: seq<Update>, verdict: Update -> Option<string>) {
    forall j :: 0 <= j < |us| ==> verdict(us[j]).None?
  }

  /** An update that yields a code, with none yielding before it, is the first. */
  lemma FirstYieldingAt(us: seq<Update>, verdict: Update -> Option<string>, i: nat)
    requires i < |us| && verdict(us[i]).Some?
    requires forall j :: 0 <= j < i ==> verdict(us[j]).None?
    ensures FirstYielding(us, verdict) == Some(i)
  {
  }

  /** The code of the first update that yields one, if any. */
  function FirstCode(us: seq<Update>, verdict: Update -> Option<string>): (code: Option<string>)
    ensures code.None? <==> NoneYield(us, verdict)
  {
    match FirstYielding(us, verdict)
    case None => None
    case Some(k) => verdict(us[k])
  }

  /** The cursor after a batch that held no code: one past its last update. */
  function AfterBatch(offset: int, batch: seq<Update>): int {
    if |batch| == 0 then offset else batch[|batch| - 1].updateId + 1
  }

  /**
   * One batch of the wait: every update inspected moves the cursor to its
   * id + 1; the first update that yields a code ends the batch with it.
   */
  method ProcessBatch(offset: int, batch: seq<Update>, verdict: Update -> Option<string>) returns (next: int, code: Option<string>)
    ensures code == FirstCode(batch, verdict)
    ensures code.Some? ==> next == batch[FirstYielding(batch, verdict).value].updateId + 1
    ensures code.None? ==> next == AfterBatch(offset, batch)
  {
    next := offset;
    code := None;
    var i := 0;
    while i < |batch|
      invariant 0 <= i <= |batch|
      invariant forall j :: 0 <= j < i ==> verdict(batch[j]).None?
      invariant next == if i == 0 then offset else batch[i - 1].updateId + 1
    {
      var u := batch[i];
      next := u.updateId + 1;
      var v := verdict(u);
      if v.Some? {
        code := v;
        FirstYieldingAt(batch, verdict, i);
        return;
      }
      i := i + 1;
    }
  }

  /** The updates one reply delivers: none unless it is ok. */
  function Read(reply: Reply): seq<Update> {
    if reply.Reply? && reply.ok then reply.result else []
  }

  /** The cursor after a poll that found no code. */
  function AfterPoll(offset: int, reply: Reply): int {
    if reply.Reply? && reply.ok then AfterBatch(offset, reply.result) else offset
  }

  /** Each cursor sent is the one the previous poll left behind. */
  predicate Chained(sent: seq<int>, polls: seq<Reply>) {
    forall p :: 0 <= p < |sent| - 1 && p < |polls| ==> sent[p + 1] == AfterPoll(sent[p], polls[p])
  }

  lemma ChainExtend(sent: seq<int>, polls: seq<Reply>, next: int)
    requires Chained(sent, polls)
    requires |sent| > 0 && |sent| <= |polls| ==> next == AfterPoll(sent[|sent| - 1], polls[|sent| - 1])
    ensures Chained(sent + [next], polls)
  {
    var s := sent + [next];
    forall p | 0 <= p < |s| - 1 && p < |polls|
      ensures s[p + 1] == AfterPoll(s[p], polls[p])
    {
      assert s[p] == sent[p];
    }
  }

  /**
   * `wait_code`: flush, then one request per poll until a code arrives.
   * `sent` is the cursor sent with each request.  The code returned is the
   * first code of the first poll whose reply delivers an accepted update;
   * there is none exactly when no reply does.
   */
  method WaitCode(configured: bool, flush: Reply, polls: seq<Reply>, verdict: Update -> Option<string>)
    returns (code: Option<string>, sent: seq<int>)
    ensures !configured ==> code.None? && sent == []
    ensures configured && code.Some? ==>
      exists p :: (0 <= p < |polls| && |sent| == p + 1 && code == FirstCode(Read(polls[p]), verdict)
        && forall q :: 0 <= q < p ==> NoneYield(Read(polls[q]), verdict))
    ensures configured && code.None? ==> |sent| == |polls| && forall q :: 0 <= q < |polls| ==> NoneYield(Read(polls[q]), verdict)
    ensures configured ==> |sent| <= |polls| && (|polls| > 0 ==> |sent| > 0 && sent[0] == FlushOffset(configured, flush))
    ensures Chained(sent, polls)
  {
    code, sent := None, [];
    if !configured {
      return;
    }
    var offset := FlushOffset(configured, flush);
    var p := 0;
    while p < |polls|
      invariant 0 <= p <= |polls|
      invariant |sent| == p
      invariant p > 0 ==> sent[0] == FlushOffset(configured, flush)
      invariant offset == if p == 0 then FlushOffset(configured, flush) else AfterPoll(sent[p - 1], polls[p - 1])
      invariant Chained(sent, polls)
      invariant forall q :: 0 <= q < p ==> NoneYield(Read(polls[q]), verdict)
    {
      ChainExtend(sent, polls, offset);
      sent := sent + [offset];
      var reply := polls[p];
      if reply.Reply? && reply.ok {
        var next, found := ProcessBatch(offset, reply.result, verdict);
        assert Read(polls[p]) == reply.result;
        if found.Some? {
          code := found;
          return;
        }
        offset := next;
      }
      p := p + 1;
    }
  }

  // ---------------------------------------------------------------------------
  // The feed behind the requests
  // ---------------------------------------------------------------------------

  /** getUpdates returns at most this many updates when no limit is given. */
  const PageLimit := 100

  /** The updates of the bot's queue a request with cursor `offset` can see: ids not below it, in order. */
  function Pending(log: seq<Update>, offset: int): seq<Update> {
    if |log| == 0 then []
    else (if log[0].updateId >= offset then [log[0]] else []) + Pending(log[1..], offset)
  }

  /** A getUpdates request's result: the first page of the pending updates. */
  function Serve(log: seq<Update>, offset: int): seq<Update> {
    var p := Pending(log, offset);
    if |p| <= PageLimit then p else p[..PageLimit]
  }

  lemma {:induction false} PendingAppend(a: seq<Update>, b: seq<Update>, offset: int)
    ensures Pending(a + b, offset) == Pending(a, offset) + Pending(b, offset)
  {
    if |a| > 0 {
      assert (a + b)[1..] == a[1..] + b;
      PendingAppend(a[1..], b, offset);
    } else {
      assert a + b == b;
    }
  }

  lemma {:induction false} PendingAll(log: seq<Update>, offset: int)
    requires forall i :: 0 <= i < |log| ==> log[i].updateId >= offset
    ensures Pending(log, offset) == log
  {
    if |log| > 0 {
      PendingAll(log[1..], offset);
    }
  }

  lemma {:induction false} PendingNone(log: seq<Update>, offset: int)
    requires forall i :: 0 <= i < |log| ==> log[i].updateId < offset
    ensures Pending(log, offset) == []
  {
    if |log| > 0 {
      PendingNone(log[1..], offset);
    }
  }

  /** A cursor between two runs of updates lets exactly the second run through. */
  lemma PendingPast(head: seq<Update>, tail: seq<Update>, offset: int)
    requires forall i :: 0 <= i < |head| ==> head[i].updateId < offset
    requires forall i :: 0 <= i < |tail| ==> tail[i].updateId >= offset
    ensures Pending(head + tail, offset) == tail
  {
    PendingNone(head, offset);
    PendingAll(tail, offset);
    PendingAppend(head, tail, offset);
  }

  /** In an increasing log split in two, the last id of the first part bounds both parts. */
  lemma IncreasingSplit(a: seq<Update>, b: seq<Update>)
    requires Increasing(a + b) && |a| > 0
    ensures forall i :: 0 <= i < |a| ==> a[i].updateId <= a[|a| - 1].updateId
    ensures forall i :: 0 <= i < |b| ==> a[|a| - 1].updateId < b[i].updateId
  {
    var ab := a + b;
    assert ab[|a| - 1] == a[|a| - 1];
    forall i | 0 <= i < |a|
      ensures a[i].updateId <= a[|a| - 1].updateId
    {
      assert ab[i] == a[i];
    }
    forall i | 0 <= i < |b|
      ensures a[|a| - 1].updateId < b[i].updateId
    {
      assert ab[|a| + i] == b[i];
    }
  }

  /** The cursor a successful flush of a non-empty backlog leaves: one past the last update of its first page. */
  lemma FlushCursor(backlog: seq<Update>)
    requires 0 < |backlog|
    requires forall i :: 0 <= i < |backlog| ==> backlog[i].updateId >= 0
    ensures |backlog| <= PageLimit ==> FlushOffset(true, Reply(true, Serve(backlog, 0))) == backlog[|backlog| - 1].updateId + 1
    ensures |backlog| > PageLimit ==> FlushOffset(true, Reply(true, Serve(backlog, 0))) == backlog[PageLimit - 1].updateId + 1
  {
    PendingAll(backlog, 0);
  }

  /**
   * A successful flush of a backlog that fits in one page puts the cursor
   * past all of it and no further: every update that arrives after the
   * flush is still pending, every backlog update is gone, and a request
   * is served what it would be served had the backlog never existed.
   */
  lemma FlushSkipsBacklog(backlog: seq<Update>, later: seq<Update>)
    requires Increasing(backlog + later)
    requires |backlog| <= PageLimit
    requires forall i :: 0 <= i < |backlog| ==> backlog[i].updateId >= 0
    ensures Serve(backlog + later, FlushOffset(true, Reply(true, Serve(backlog, 0)))) == Serve(later, FlushOffset(true, Reply(true, Serve(backlog, 0))))
    ensures later == [] ==> Serve(backlog, FlushOffset(true, Reply(true, Serve(backlog, 0)))) == []
    ensures Pending(backlog + later, FlushOffset(true, Reply(true, Serve(backlog, 0)))) == Pending(later, 0)
    ensures |backlog| > 0 ==> Pending(backlog + later, FlushOffset(true, Reply(true, Serve(backlog, 0)))) == later
  {
    if |backlog| == 0 {
      assert backlog + later == later;
    } else {
      LaterPending(backlog, later);
      LaterAllPending(backlog, later);
      assert backlog + [] == backlog;
    }
  }

  /** Behind a backlog of non-negative ids, every later update is visible to a cursor at 0. */
  lemma LaterAllPending(backlog: seq<Update>, later: seq<Update>)
    requires Increasing(backlog + later) && 0 < |backlog|
    requires forall i :: 0 <= i < |backlog| ==> backlog[i].updateId >= 0
    ensures Pending(later, 0) == later
  {
    IncreasingSplit(backlog, later);
    PendingAll(later, 0);
  }

  /** After the flush of a non-empty one-page backlog, the cursor lets through exactly the later updates. */
  lemma LaterPending(backlog: seq<Update>, later: seq<Update>)
    requires Increasing(backlog + later)
    requires 0 < |backlog| <= PageLimit
    requires forall i :: 0 <= i < |backlog| ==> backlog[i].updateId >= 0
    ensures Pending(backlog + later, FlushOffset(true, Reply(true, Serve(backlog, 0)))) == later
    ensures Pending(later, FlushOffset(true, Reply(true, Serve(backlog, 0)))) == later
  {
    IncreasingSplit(backlog, later);
    FlushCursor(backlog);
    var off := FlushOffset(true, Reply(true, Serve(backlog, 0)));
    PendingPast(backlog, later, off);
    PendingAll(later, off);
  }

  /**
   * The flush reads only the first page, so with more than one page of
   * backlog the cursor stops inside it: the 101st pending update is served
   * to the wait, stale or not.
   */
  lemma BacklogBeyondOnePageLeaks(backlog: seq<Update>)
    requires Increasing(backlog)
    requires |backlog| == PageLimit + 1
    requires forall i :: 0 <= i < |backlog| ==> backlog[i].updateId >= 0
    ensures Serve(backlog, FlushOffset(true, Reply(true, Serve(backlog, 0)))) == [backlog[PageLimit]]
  {
    FlushCursor(backlog);
    LastOfTwoPages(backlog);
  }

  /** A cursor one past the 100th update of 101 lets only the 101st through. */
  lemma LastOfTwoPages(backlog: seq<Update>)
    requires Increasing(backlog)
    requires |backlog| == PageLimit + 1
    ensures Pending(backlog, backlog[PageLimit - 1].updateId + 1) == [backlog[PageLimit]]
  {
    var head, tail := backlog[..PageLimit], backlog[PageLimit..];
    assert backlog == head + tail;
    IncreasingSplit(head, tail);
    assert head[PageLimit - 1] == backlog[PageLimit - 1];
    PendingPast(head, tail, backlog[PageLimit - 1].updateId + 1);
    assert tail == [backlog[PageLimit]];
  }

  /**
   * A failed flush leaves the cursor at 0, so the first request of the wait
   * is served the backlog itself.
   */
  lemma FailedFlushServesBacklog(backlog: seq<Update>)
    requires |backlog| <= PageLimit
    requires forall i :: 0 <= i < |backlog| ==> backlog[i].updateId >= 0
    ensures Serve(backlog, FlushOffset(true, Broken)) == backlog
  {
    PendingAll(backlog, 0);
  }
}

=== FILE: urls.dfy ===
/**
 * URL predicates of the login script: the sign-in page test, the tenant-URL
 * test and the small part of `urllib.parse.urlsplit` that region detection
 * and base-URL resolution read (scheme and network location).
 */
module Urls {
  import opened Strings

  const Https := "https://"

  /** Every tenant host ends in this suffix. */
  const TenantSuffix := ".run.claw.cloud"

  // ---------------------------------------------------------------------------
  // Sign-in pages
  // ---------------------------------------------------------------------------

  /**
   * A sign-in page, judged on the lower-cased URL: any `/signin`, or a
   * `/login` that is not on github.com.  The empty string stands for a page
   * without a URL.
   */
  predicate IsSigninUrl(url: string) {
    var u := ToLower(url);
    Contains(u, "/signin") || (!Contains(u, "github.com") && Contains(u, "/login"))
  }

  /** The test is case-insensitive search for the three needles, stated without lower-casing the URL. */
  lemma SigninUrlIgnoresCase(url: string)
    ensures IsSigninUrl(url) <==>
      ContainsFolded(url, "/signin") || (!ContainsFolded(url, "github.com") && ContainsFolded(url, "/login"))
  {
    ContainsLowerIsFolded(url, "/signin");
    ContainsLowerIsFolded(url, "github.com");
    ContainsLowerIsFolded(url, "/login");
  }

  /** Any `/signin` anywhere, in any letter case, makes a sign-in URL, whatever surrounds it. */
  lemma SigninSegmentDecides(before: string, seg: string, after: string)
    requires |seg| == 7 && FoldedAt(seg, "/signin", 0)
    ensures IsSigninUrl(before + seg + after)
  {
    var url := before + seg + after;
    assert FoldedAt(url, "/signin", |before|) by {
      forall k | 0 <= k < 7
        ensures Lower(url[|before| + k]) == Lower("/signin"[k])
      {
        assert url[|before| + k] == seg[k];
      }
    }
    SigninUrlIgnoresCase(url);
  }

  /** One spelling the rule catches: `/SignIn`. */
  lemma MixedCaseSignin(before: string, after: string)
    ensures IsSigninUrl(before + "/SignIn" + after)
  {
    assert FoldedAt("/SignIn", "/signin", 0);
    SigninSegmentDecides(before, "/SignIn", after);
  }

  /** GitHub's own login page is not a sign-in page: the `/login` rule excludes github.com. */
  lemma GitHubLoginIsNotSignin()
    ensures !IsSigninUrl("https://github.com/login")
  {
    var g := "https://github.com/login";
    ToLowerOfFolded(g);
    NotContainsByPair(g, "/signin");
    assert OccursAt(g, "github.com", 8);
  }

  // ---------------------------------------------------------------------------
  // Tenant URLs
  // ---------------------------------------------------------------------------

  /**
   * The regex `^https://[a-z]+-[a-z]+-\d+\.run\.claw\.cloud` tried with
   * `re.match`: anchored at the start only.  Neither character class
   * contains `-` or `.`, so each run is scanned greedily with no backtracking.
   */
  predicate IsRunCloudUrl(url: string) {
    StartsWith(url, Https) && LettersDashLetters(url[|Https|..])
  }

  /** `[a-z]+-` and then the rest of the pattern. */
  predicate LettersDashLetters(a: string) {
    var n := Span(a, LowerLetter);
    0 < n < |a| && a[n] == '-' && LettersDashDigits(a[n + 1..])
  }

  /** `[a-z]+-` and then `\d+\.run\.claw\.cloud`. */
  predicate LettersDashDigits(b: string) {
    var n := Span(b, LowerLetter);
    0 < n < |b| && b[n] == '-' && DigitsThenSuffix(b[n + 1..])
  }

  /** `\d+\.run\.claw\.cloud`. */
  predicate DigitsThenSuffix(c: string) {
    var n := Span(c, Digit);
    0 < n && StartsWith(c[n..], TenantSuffix)
  }

  /** Labels of a tenant origin: two runs of lower-case letters and a run of digits. */
  predicate TenantLabels(x: string, y: string, d: string) {
    |x| > 0 && |y| > 0 && |d| > 0 && AllIn(x, LowerLetter) && AllIn(y, LowerLetter) && AllIn(d, Digit)
  }

  /** `https://` + x + `-` + y + `-` + d + `.run.claw.cloud`. */
  function TenantOrigin(x: string, y: string, d: string): string {
    Https + x + "-" + y + "-" + d + TenantSuffix
  }

  lemma DigitsThenSuffixOf(d: string, rest: string)
    requires |d| > 0 && AllIn(d, Digit)
    ensures DigitsThenSuffix(d + TenantSuffix + rest)
  {
    var c := d + TenantSuffix + rest;
    assert c == d + (TenantSuffix + rest);
    SpanOfConcat(d, TenantSuffix + rest, Digit);
    assert c[|d|..] == TenantSuffix + rest;
  }

  lemma LettersDashOf(y: string, c: string)
    requires |y| > 0 && AllIn(y, LowerLetter)
    ensures Span(y + ['-'] + c, LowerLetter) == |y|
    ensures (y + ['-'] + c)[|y|] == '-' && (y + ['-'] + c)[|y| + 1..] == c
  {
    SpanUpTo(y, '-', c, LowerLetter);
  }

  /** Every tenant origin followed by anything at all passes the tenant-URL test. */
  lemma TenantOriginAccepted(x: string, y: string, d: string, rest: string)
    requires TenantLabels(x, y, d)
    ensures IsRunCloudUrl(TenantOrigin(x, y, d) + rest)
  {
    var c := d + TenantSuffix + rest;
    DigitsThenSuffixOf(d, rest);
    var b := y + ['-'] + c;
    LettersDashOf(y, c);
    assert LettersDashDigits(b);
    var a := x + ['-'] + b;
    LettersDashOf(x, b);
    assert LettersDashLetters(a);
    var url := TenantOrigin(x, y, d) + rest;
    Regroup(Https, x, y, d, TenantSuffix, rest);
    assert url[|Https|..] == a;
  }

  /** A tenant origin is `https://` followed by the host `x-y-d.run.claw.cloud`. */
  lemma OriginIsHost(x: string, y: string, d: string, tail: string)
    ensures TenantOrigin(x, y, d) + tail == Https + ((x + "-" + y + "-" + d) + TenantSuffix) + tail
  {
    Regroup2(Https, x, y, d, TenantSuffix, tail);
  }

  lemma Regroup2(h: string, x: string, y: string, d: string, s: string, tail: string)
    ensures h + x + "-" + y + "-" + d + s + tail == h + ((x + "-" + y + "-" + d) + s) + tail
  {
  }

  lemma Regroup(h: string, x: string, y: string, d: string, s: string, rest: string)
    ensures h + x + "-" + y + "-" + d + s + rest == h + (x + ['-'] + (y + ['-'] + (d + s + rest)))
  {
  }

  /** Whatever the test accepts starts with a tenant origin. */
  lemma RunCloudUrlHasOrigin(url: string) returns (x: string, y: string, d: string)
    requires IsRunCloudUrl(url)
    ensures TenantLabels(x, y, d) && StartsWith(url, TenantOrigin(x, y, d))
  {
    var a := url[|Https|..];
    var n1 := Span(a, LowerLetter);
    var b := a[n1 + 1..];
    var n2 := Span(b, LowerLetter);
    var c := b[n2 + 1..];
    var n3 := Span(c, Digit);
    x, y, d := a[..n1], b[..n2], c[..n3];
    var rest := c[n3 + |TenantSuffix|..];
    assert c == d + TenantSuffix + rest;
    assert b == y + ['-'] + c;
    assert a == x + ['-'] + b;
    assert url == Https + a;
    Regroup(Https, x, y, d, TenantSuffix, rest);
  }

  /** The tenant-URL test accepts exactly the strings that start with a tenant origin. */
  lemma RunCloudUrlShape(url: string)
    ensures IsRunCloudUrl(url) <==>
      exists x, y, d :: TenantLabels(x, y, d) && StartsWith(url, TenantOrigin(x, y, d))
  {
    if IsRunCloudUrl(url) {
      var x, y, d := RunCloudUrlHasOrigin(url);
    }
    if exists x, y, d :: TenantLabels(x, y, d) && StartsWith(url, TenantOrigin(x, y, d)) {
      var x, y, d :| TenantLabels(x, y, d) && StartsWith(url, TenantOrigin(x, y, d));
      var o := TenantOrigin(x, y, d);
      assert url == o + url[|o|..];
      TenantOriginAccepted(x, y, d, url[|o|..]);
    }
  }

  /** The console entry host is not a tenant: `console` is not `letters-letters-digits`. */
  lemma ConsoleIsNotTenant()
    ensures !IsRunCloudUrl("https://console.run.claw.cloud")
  {
    var a := "console.run.claw.cloud";
    assert "https://console.run.claw.cloud"[|Https|..] == a;
    SpanUpTo("console", '.', "run.claw.cloud", LowerLetter);
    assert "console" + ['.'] + "run.claw.cloud" == a;
  }

  /** Only the start is anchored: a tenant origin inside a foreign host still passes. */
  lemma RunCloudUrlIgnoresWhatFollows()
    ensures IsRunCloudUrl(TenantOrigin("ap", "southeast", "1") + ".example.com/")
  {
    TenantOriginAccepted("ap", "southeast", "1", ".example.com/");
  }

  // ---------------------------------------------------------------------------
  // Scheme and network location (`urlsplit`)
  // ---------------------------------------------------------------------------

  /**
   * `urlsplit` takes the text before the first `:` as the scheme when it is
   * non-empty, starts with a letter and holds only scheme characters.
   */
  predicate HasScheme(url: string) {
    var i := Span(url, NotColon);
    0 < i < |url| && (IsLowerLetter(url[0]) || IsUpperLetter(url[0])) && AllIn(url[..i], SchemeChar)
  }

  /** The lower-cased scheme, or empty. */
  function Scheme(url: string): (s: string)
    ensures IsFolded(s)
    ensures s != [] ==> HasScheme(url)
  {
    if HasScheme(url) then ToLower(url[..Span(url, NotColon)]) else ""
  }

  /** What follows the scheme and its `:`. */
  function AfterScheme(url: string): string {
    if HasScheme(url) then url[Span(url, NotColon) + 1..] else url
  }

  /**
   * The network location: after a leading `//`, everything up to the first
   * `/`, `?` or `#`.
   */
  function Netloc(url: string): (host: string)
    ensures AllIn(host, AuthorityChar)
    ensures host != [] ==> StartsWith(AfterScheme(url), "//" + host)
    ensures !StartsWith(AfterScheme(url), "//") ==> host == ""
    ensures StartsWith(AfterScheme(url), "//") ==>
      StartsWith(AfterScheme(url), "//" + host)
      && (|host| + 2 == |AfterScheme(url)| || !InClass(AfterScheme(url)[|host| + 2], AuthorityChar))
  {
    var rest := AfterScheme(url);
    if StartsWith(rest, "//") then
      var t := rest[2..];
      var host := t[..Span(t, AuthorityChar)];
      assert rest == "//" + host + t[|host|..];
      host
    else
      ""
  }

  /** `f"{p.scheme}://{p.netloc}"` for `p = urlparse(url)`. */
  function Origin(url: string): string {
    Scheme(url) + "://" + Netloc(url)
  }

  /** An `https://` URL's network location is the host written after `//`, up to the path, query or fragment. */
  lemma NetlocOfHttps(host: string, tail: string)
    requires AllIn(host, AuthorityChar)
    requires |tail| > 0 ==> !InClass(tail[0], AuthorityChar)
    ensures Scheme(Https + host + tail) == "https"
    ensures Netloc(Https + host + tail) == host
  {
    var url := Https + host + tail;
    var rest := "//" + host + tail;
    assert url == "https" + [':'] + rest;
    HttpsSchemeOf(rest);
    assert rest[2..] == host + tail;
    SpanOfConcat(host, tail, AuthorityChar);
    assert (host + tail)[..|host|] == host;
  }

  /** The text `https:` is read as the scheme `https`, and what follows it is the rest. */
  lemma HttpsSchemeOf(rest: string)
    ensures Scheme("https" + [':'] + rest) == "https"
    ensures AfterScheme("https" + [':'] + rest) == rest
  {
    var url := "https" + [':'] + rest;
    SpanUpTo("https", ':', rest, NotColon);
    assert url[..5] == "https";
    assert HasScheme(url);
    assert ToLower("https") == "https";
  }
}

=== FILE: wrappers.dfy ===
/** The optional-value type shared by every module of the model. */
module Wrappers {

  /** Python's `None` or a present value. */
  datatype Option<+T> = None | Some(value: T)
}
